=== FILE: README.md ===
# RubbishReview core, modelled in Dafny

RubbishReview is a satirical academic-publishing site built with Next.js and Supabase. This project models the parts of its web app where the state changes and the rules live:

- **API route handlers.** Each one is a pure transition on the table it writes: votes, reactions, bookmarks, notifications, invite codes, papers with the activity log, profiles, reports, venue applications and the upload path. Each transition returns the new table and the HTTP outcome. A class whose fields are those tables runs the same steps imperatively, and each of its methods is proved equal to the transition.
- **Anonymisation library.** This is what hides who wrote a paper, review or comment.
- **Client logic.** The comment thread's `buildTree`, the `VoteButton` counter, the BibTeX citation and the mobile navigation's highlight rule.

Session users, clocks, random bytes, HMAC digests and database failures are parameters of the model. Strings are sequences of characters, and case mapping is ASCII only.

Modules follow the source files:

- `Js`: the JavaScript idioms the handlers share, such as truthiness of optional strings, `||` defaults, `trim`, `toUpperCase` and `startsWith`.
- `Paging`: the offset pagination of the list handlers.
- One module per route or component.

## Model

All source paths are under `apps/web/src/`.

| member | source | states |
|---|---|---|
| Anonymize.Secret | apps/web/src/lib/anonymize.ts:10 | an unset or empty ANON_HASH_SECRET falls back to the built-in default secret, a set one is used as given |
| Anonymize.HashUserId | apps/web/src/lib/anonymize.ts:12-16 | every pseudonym is `RR-` followed by eight lower-case hex digits |
| Anonymize.PseudonymCollision | apps/web/src/lib/anonymize.ts:12-16 | two users get the same pseudonym exactly when the first 32 bits of their digests agree |
| Anonymize.AnonymizeProfile | apps/web/src/lib/anonymize.ts:25-41 | a missing profile gives null; one without a string id throws; otherwise the result has exactly the ten profile keys, with id, username and display name the pseudonym, personal fields null, karma 0, and `created_at` kept (null when absent) |
| Anonymize.ProfileForgetsPersonalData | apps/web/src/lib/anonymize.ts:25-41 | two profiles that agree on id and creation time anonymise to the same object, so no other field leaks |
| Anonymize.AnonId | apps/web/src/lib/anonymize.ts:58 | a falsy id becomes null, a string id its pseudonym, and any other value throws |
| Anonymize.AnonymizeRecord | apps/web/src/lib/anonymize.ts:47-64 | the viewer's own record comes back unchanged; any other record keeps all of its fields except the id field (the pseudonym) and the profile field (the anonymised profile), and it fails exactly when one of those two fails |
| Anonymize.AnonymizeList | apps/web/src/lib/anonymize.ts:69-76 | succeeds exactly when every record does, and the result is then element by element the anonymised records, in order |
| Anonymize.ListPseudonymsConsistent | apps/web/src/lib/anonymize.ts:53-61 | within one list, two records of the same other user carry the same pseudonym, and a real id not itself shaped like a pseudonym never appears |
| ReplyTree.Placement | apps/web/src/components/forum/ReplyTree.tsx:18-22 | a comment goes under a node exactly when its parent id is set and is the id of some comment in the list, and then under that parent |
| ReplyTree.BuildTree | apps/web/src/components/forum/ReplyTree.tsx:8-26 | there is one node per distinct id, holding the last comment with that id; the roots and each node's replies are the comments placed there, in input order |
| ReplyTree.IndexNodes | apps/web/src/components/forum/ReplyTree.tsx:12-14 | after the first pass, every id has a node with no replies, and a repeated id holds the last comment carrying it |
| ReplyTree.AttachReplies | apps/web/src/components/forum/ReplyTree.tsx:16-23 | after the second pass, the roots and every reply list equal the input-order list of comments placed there |
| ReplyTree.ListedExactlyOnce | apps/web/src/components/forum/ReplyTree.tsx:16-23 | with unique ids, a list names a comment exactly when the comment is placed there, and names it once |
| ReplyTree.ListedInOrder | apps/web/src/components/forum/ReplyTree.tsx:16-23 | of two comments placed in one list, the earlier in the input comes first |
| ReplyTree.Partition | apps/web/src/components/forum/ReplyTree.tsx:16-25 | with unique ids, every comment is either a root or in exactly its parent's reply list, and no list repeats a comment |
| ReplyTree.EdgeIsParent | apps/web/src/components/forum/ReplyTree.tsx:18-19 | with unique ids, a reply edge of the built forest is exactly a parent pointer |
| ReplyTree.ReachesIsUp | apps/web/src/components/forum/ReplyTree.tsx:18-19 | a comment is k reply-steps below a node exactly when going up k parents from it reaches that node |
| ReplyTree.ReachableFromExactlyOneRoot | apps/web/src/components/forum/ReplyTree.tsx:8-26 | a comment whose parent chain ends at a root is shown below that root, and below no other root at any depth |
| ReplyTree.CycleUnreachable | apps/web/src/components/forum/ReplyTree.tsx:18-22 | a comment on a parent cycle is below no root, so it never appears in the rendered thread |
| ReplyTree.SelfParentUnreachable | apps/web/src/components/forum/ReplyTree.tsx:18-22 | a comment naming itself as parent is attached to its own node and is never rendered |
| ReplyTree.AcyclicChainEndsAtRoot | apps/web/src/components/forum/ReplyTree.tsx:8-26 | without parent cycles, every comment is shown below some root, fewer levels down than there are comments |
| VoteRoute.Status | apps/web/src/app/api/vote/route.ts:40-51 | the response is 2xx exactly for a removal, a change or a creation |
| VoteRoute.Vote | apps/web/src/app/api/vote/route.ts:8-51 | no user gives 401 and an invalid body 400, with the table unchanged; re-voting the stored value deletes the vote, the other value changes it, and a first vote inserts it |
| VoteRoute.OutcomeMatchesTable | apps/web/src/app/api/vote/route.ts:27-51 | rejected requests change nothing, and an accepted one leaves the key holding exactly the value the response reports |
| VoteRoute.ValuesStayValid | apps/web/src/app/api/vote/route.ts:14-16 | the table only ever holds -1 or 1 |
| VoteRoute.OtherKeysUntouched | apps/web/src/app/api/vote/route.ts:19-51 | votes under every other key are unchanged |
| VoteRoute.SameVoteTwice | apps/web/src/app/api/vote/route.ts:27-51 | the same vote sent twice restores the table unless the key held the opposite vote, in which case the vote ends up removed |
| VoteRoute.VoteTable.Post | apps/web/src/app/api/vote/route.ts:8-51 | the imperative lookup then delete, update or insert leaves the table and the outcome that `Vote` specifies |
| VoteButton.RequestValue | apps/web/src/components/community/VoteButton.tsx:28 | the button sends 0 exactly when the click repeats the current vote, and otherwise the clicked direction |
| VoteButton.AfterClick | apps/web/src/components/community/VoteButton.tsx:32-53 | the state changes only on a 2xx response: withdraw, set or flip the vote, with the count following |
| VoteButton.OthersConserved | apps/web/src/components/community/VoteButton.tsx:37-50 | every click preserves the count minus the viewer's own vote, and the vote stays null, +1 or -1 |
| VoteButton.ClickTwiceRestores | apps/web/src/components/community/VoteButton.tsx:37-50 | two successful clicks in the same direction return the button to its starting state |
| VoteButton.ServerStep | apps/web/src/components/community/VoteButton.tsx:24-31 | the route accepts the button's request exactly when the value sent is 1 or -1 |
| VoteButton.UnvoteRejected | apps/web/src/components/community/VoteButton.tsx:28 | as written, withdrawing a vote is answered with 400, and neither the server's vote nor the button's state changes |
| VoteButton.CorrectedRequestValue | apps/web/src/components/community/VoteButton.tsx:28 | the corrected request always carries a value the route accepts |
| VoteButton.CorrectedRoundTripSynced | apps/web/src/components/community/VoteButton.tsx:19-55 | with the corrected request, a button in sync with the server stays in sync after any click, a repeated click withdraws the vote, and the count moves by the change in the viewer's vote |
| VoteButton.Button.HandleVote | apps/web/src/components/community/VoteButton.tsx:19-55 | the imperative handler sends `RequestValue`, moves the state as `AfterClick` says, and always ends with loading off |
| ReactRoute.Status | apps/web/src/app/api/react/route.ts:35-46 | the status is 201 exactly for a reaction that was added |
| ReactRoute.React | apps/web/src/app/api/react/route.ts:8-46 | no user gives 401 and a missing field 400; otherwise the key is removed if present and added if absent, and the flag says it was added |
| ReactRoute.FlagIsMembership | apps/web/src/app/api/react/route.ts:35-46 | the `reacted` flag is true exactly when the reaction is in the table afterwards |
| ReactRoute.ReactTwiceRestores | apps/web/src/app/api/react/route.ts:28-46 | reacting twice with the same request restores the table |
| ReactRoute.OthersUntouched | apps/web/src/app/api/react/route.ts:19-46 | no other user's, target's or emoji's reaction changes |
| ReactRoute.ReactionTable.Post | apps/web/src/app/api/react/route.ts:8-46 | the imperative lookup then delete or insert agrees with `React` |
| BookmarkRoute.Status | apps/web/src/app/api/bookmark/route.ts:37-46 | the status is 201 exactly for a bookmark that was added |
| BookmarkRoute.Toggle | apps/web/src/app/api/bookmark/route.ts:8-46 | no user gives 401 and no paper id 400; otherwise the pair is removed if present and added if absent, and the flag says it was added |
| BookmarkRoute.FlagIsMembership | apps/web/src/app/api/bookmark/route.ts:37-46 | the `bookmarked` flag is true exactly when the pair is bookmarked afterwards |
| BookmarkRoute.ToggleTwiceRestores | apps/web/src/app/api/bookmark/route.ts:26-46 | toggling twice is the identity on the table |
| BookmarkRoute.OthersUntouched | apps/web/src/app/api/bookmark/route.ts:19-46 | only the caller's pair for that paper can change |
| BookmarkRoute.BookmarkTable.Post | apps/web/src/app/api/bookmark/route.ts:8-46 | the imperative lookup then delete or insert agrees with `Toggle` |
| NotificationsRead.MarkRead | apps/web/src/app/api/notifications/read/route.ts:15-29 | the update keeps the set of notification ids |
| NotificationsRead.PatchStep | apps/web/src/app/api/notifications/read/route.ts:8-31 | the request is refused with 401 exactly when nobody is signed in, and then nothing changes |
| NotificationsRead.ListedBecomeRead | apps/web/src/app/api/notifications/read/route.ts:15-21 | with an `ids` array, a notification is read afterwards exactly when it already was, or it is the caller's and listed |
| NotificationsRead.AllOfCallerBecomeRead | apps/web/src/app/api/notifications/read/route.ts:22-29 | without one, all of the caller's notifications become read and nobody else's change |
| NotificationsRead.OnlyIsReadChanges | apps/web/src/app/api/notifications/read/route.ts:15-29 | only `is_read` changes, only from false to true, and other users' rows not at all |
| NotificationsRead.Idempotent | apps/web/src/app/api/notifications/read/route.ts:8-31 | repeating the request changes nothing more |
| NotificationsRead.NotificationTable.Patch | apps/web/src/app/api/notifications/read/route.ts:8-31 | the bulk update agrees with `PatchStep` |
| InviteCodes.AlphabetFacts | apps/web/src/app/api/invite-codes/route.ts:71 | the alphabet has 32 letters and excludes I, O, 0 and 1 |
| InviteCodes.AlphabetUpper | apps/web/src/app/api/invite-codes/route.ts:71 | every letter of the alphabet is an upper-case letter or a digit from 2 to 9, so none is lower case or whitespace |
| InviteCodes.RandomChars | apps/web/src/app/api/invite-codes/route.ts:69-78 | byte i chooses character i as the alphabet letter at byte mod 32 |
| InviteCodes.RandomString | apps/web/src/app/api/invite-codes/route.ts:69-78 | the loop builds a string of the requested length whose every character is the alphabet letter its byte picks |
| InviteCodes.RandomCharsInAlphabet | apps/web/src/app/api/invite-codes/route.ts:69-78 | random characters are never one of the look-alikes I, O, 0, 1 |
| InviteCodes.GeneratedCodeShape | apps/web/src/app/api/invite-codes/route.ts:50 | upper-casing does not alter a generated code, which is `RR-XXXX-XXXX` over the alphabet, and its two random parts can be read back |
| InviteCodes.UnusedCodes | apps/web/src/app/api/invite-codes/route.ts:36-44 | the codes counted are exactly the caller's codes with no `used_by` |
| InviteCodes.ExpiresInDays | apps/web/src/app/api/invite-codes/route.ts:46-47 | an absent or zero `expires_in_days` means 30, and any other value is used as given, so the result is never zero |
| InviteCodes.GenerateStep | apps/web/src/app/api/invite-codes/route.ts:27-67 | no user gives 401 and five or more unused codes give 400, with the table unchanged; under the quota an expiry time outside the range of a JavaScript `Date` (±8.64e15 ms) gives 500 from `toISOString` with nothing inserted; otherwise the code is created exactly when it is not already in the table, and the insert fails with the table unchanged when it is; a creation inserts the new code for the caller, unused, expiring the requested days after now |
| InviteCodes.QuotaKept | apps/web/src/app/api/invite-codes/route.ts:36-64 | nobody ever holds more than five unused codes, and a creation adds exactly the new code to the caller's unused codes |
| InviteCodes.HugeExpiryFails | apps/web/src/app/api/invite-codes/route.ts:47-57 | a request for a billion days, or minus a billion, fails with the 500 and inserts nothing, at any clock reading a `Date` can hold |
| InviteCodes.ExpiryAfterCreation | apps/web/src/app/api/invite-codes/route.ts:46-60 | a new code expires in the future exactly when the day count is positive, and by default 30 days after creation |
| InviteCodes.InviteTable.Generate | apps/web/src/app/api/invite-codes/route.ts:27-67 | the imperative handler agrees with `GenerateStep` |
| InviteVerify.Normalize | apps/web/src/app/api/invite-codes/verify/route.ts:26-28 | the lookup key is as long as the trimmed input |
| InviteVerify.RedeemStep | apps/web/src/app/api/invite-codes/verify/route.ts:9-51 | no user gives 401, a blank code 400 and a code whose normalised form is unknown 404, each with the table unchanged; the code is applied exactly when its normalised form is a known, unused, unexpired code, and then only that row changes, recording the caller and the time |
| InviteVerify.CheckOrder | apps/web/src/app/api/invite-codes/verify/route.ts:34-45 | "used" is reported before "expired", and a code without an expiry time never expires |
| InviteVerify.CaseInsensitive | apps/web/src/app/api/invite-codes/verify/route.ts:26-28 | codes that differ only in ASCII case are handled alike |
| InviteVerify.SameKeySameStep | apps/web/src/app/api/invite-codes/verify/route.ts:15-28 | redemption depends on the typed code only through whether it is blank and through its normalised key |
| InviteVerify.PaddingIgnored | apps/web/src/app/api/invite-codes/verify/route.ts:26-28 | whitespace around the code makes no difference |
| InviteVerify.OnceOnly | apps/web/src/app/api/invite-codes/verify/route.ts:34-49 | after a redemption, every later attempt on that code is refused as already used, and no other row or field changes |
| InviteVerify.GeneratedCodeNormal | apps/web/src/app/api/invite-codes/verify/route.ts:26-28 | a generated code is already trimmed and upper case, so it is its own lookup key |
| InviteVerify.RedeemOpenRow | apps/web/src/app/api/invite-codes/verify/route.ts:30-49 | an unused row is applied, before it expires, for any input that normalises to its code |
| InviteVerify.GeneratedCodeKey | apps/web/src/app/api/invite-codes/verify/route.ts:26-28 | a generated code is non-blank and is its own lookup key |
| InviteVerify.GeneratedRowOpen | apps/web/src/app/api/invite-codes/route.ts:52-60 | after a successful generation the table holds an unused row under the returned code, expiring the granted number of days after now |
| InviteVerify.GeneratedCodeRedeemable | apps/web/src/app/api/invite-codes/verify/route.ts:30-49 | a code that the generator just created can be redeemed by anybody until it expires |
| InviteVerify.TypedCodeRedeemable | apps/web/src/app/api/invite-codes/verify/route.ts:26-49 | the same holds for the code typed in any letter case and with surrounding whitespace |
| InviteVerify.Redeem | apps/web/src/app/api/invite-codes/verify/route.ts:9-51 | the imperative handler on the shared invite table agrees with `RedeemStep` |
| Paging.Offset | apps/web/src/app/api/papers/route.ts:35 | the first page starts at row 0, and no page starts before it |
| Paging.Last | apps/web/src/app/api/papers/route.ts:35 | the inclusive range holds exactly `limit` rows |
| Paging.NextPageAdjacent | apps/web/src/app/api/papers/route.ts:35 | each page's window starts right after the previous one ends |
| Paging.PagesTile | apps/web/src/app/api/papers/route.ts:35 | with a positive page size, every row is on exactly one page, namely page `i / limit + 1` |
| PapersRoute.Status | apps/web/src/app/api/papers/route.ts:83-99 | the response is 2xx exactly for a created paper |
| PapersRoute.Initial | apps/web/src/app/api/papers/route.ts:62-81 | a request whose `review_mode` is `instant` publishes the paper at once as certified rubbish; any other mode leaves it submitted and undecided |
| PapersRoute.SubmitStep | apps/web/src/app/api/papers/route.ts:44-100 | no user gives 401 and a missing title, content type or venue gives 400; a valid request whose insert fails gives 500 with nothing written; a creation appends the caller's paper under the next id, and the activity log gains the submission or stays as it was |
| PapersRoute.CreatedPaperConsistent | apps/web/src/app/api/papers/route.ts:62-81 | a new paper has a decision exactly when it is published, a decision time exactly when it has a decision, and that time is now |
| PapersRoute.CreatedPaperDefaults | apps/web/src/app/api/papers/route.ts:62-81 | a falsy `pdf_url` is stored as null and a missing `image_urls` as an empty list; the abstract, keywords, content type, markdown content, supplementary URLs and review mode are stored as sent |
| PapersRoute.ActivityLogBestEffort | apps/web/src/app/api/papers/route.ts:87-97 | a failed activity-log write changes neither the response nor the papers table |
| PapersRoute.PaperStore.Submit | apps/web/src/app/api/papers/route.ts:44-100 | the imperative handler agrees with `SubmitStep` |
| PapersRoute.PlanList | apps/web/src/app/api/papers/route.ts:4-42 | page and limit default to 1 and 20; the venue and status filters are applied only when given; `latest` sorts by creation time, `top` by rubbish score, anything else by hot score; the range is exactly the page's window |
| AdminUsers.ParseRole | apps/web/src/app/api/admin/users/route.ts:76-79 | a role is accepted exactly when it is one of the three role names |
| AdminUsers.PatchStep | apps/web/src/app/api/admin/users/route.ts:54-97 | only a system administrator passes the gate; for one, a missing `userId` or `role` gives 400 "required", an unknown role 400 "invalid role", and an unknown target 500 (no row to return), before any write; the update happens exactly when the fields are present, the role is valid, the target exists and the caller is not demoting themself, and then only the target's role changes |
| AdminUsers.OnlyTargetRoleChanges | apps/web/src/app/api/admin/users/route.ts:86-91 | no row other than the target's changes, and no field of it other than `role` |
| AdminUsers.CallerKeepsAdmin | apps/web/src/app/api/admin/users/route.ts:82-84 | a system administrator is still one after any `PATCH` they send |
| AdminUsers.AdminsNeverDieOut | apps/web/src/app/api/admin/users/route.ts:54-97 | if there is a system administrator before a `PATCH`, there is one after it |
| AdminUsers.ProfileTable.Patch | apps/web/src/app/api/admin/users/route.ts:54-97 | the imperative handler agrees with `PatchStep` |
| AdminUsers.ListStep | apps/web/src/app/api/admin/users/route.ts:9-34 | no user gives 401 and a non-administrator 403; only a system administrator gets a listing, whose page and limit are the given ones or default to 1 and 50, and whose range is that page's window |
| AdminUsers.ListingPagesTile | apps/web/src/app/api/admin/users/route.ts:25-34 | for a positive page and limit, every profile position lies in the listing of exactly one page |
| AdminUsers.DefaultListing | apps/web/src/app/api/admin/users/route.ts:9-34 | the default listing covers rows 0 to 49 |
| ReportsRoute.PendingCount | apps/web/src/app/api/reports/route.ts:25-32 | the count is zero exactly when no row is a pending report by that reporter on that target |
| ReportsRoute.ReportStep | apps/web/src/app/api/reports/route.ts:9-54 | no user gives 401 and a missing field or an unknown target type gives 400; a report is refused as a duplicate exactly when exactly one pending report matches; otherwise it is appended as pending |
| ReportsRoute.OnePendingKept | apps/web/src/app/api/reports/route.ts:25-48 | no sequence of reports leaves two pending reports by one reporter on one target |
| ReportsRoute.ReReportAfterResolution | apps/web/src/app/api/reports/route.ts:25-48 | when no pending report by the caller on the target exists, a valid report is created |
| ReportsRoute.ReportTable.Post | apps/web/src/app/api/reports/route.ts:9-54 | the imperative handler agrees with `ReportStep` |
| ReportsRoute.NewestFirst | apps/web/src/app/api/reports/route.ts:77-84 | only reports with the status are listed, newest first |
| ReportsRoute.NewestFirstComplete | apps/web/src/app/api/reports/route.ts:77-84 | every report with the status is listed |
| ReportsRoute.NewestPageComplete | apps/web/src/app/api/reports/route.ts:77-84 | the fifty-report page leaves out no report with the status that is newer than its last entry, and none at all when it is not full |
| ReportsRoute.ListStep | apps/web/src/app/api/reports/route.ts:62-84 | only content and system administrators may list; at most fifty reports come back, all with the requested status (by default pending), newest first, and none with the status is left out unless it is older than every listed one on a full page |
| ReportsRoute.ListAllWhenFew | apps/web/src/app/api/reports/route.ts:77-84 | when at most fifty reports have the status, all of them are listed |
| VenueApplications.SlugIsLowerCase | apps/web/src/app/api/venue-applications/route.ts:58-60 | a valid slug is already lower case, and one with an upper-case letter is refused |
| VenueApplications.NullDefaults | apps/web/src/app/api/venue-applications/route.ts:79-87 | every falsy optional field is stored as null, and every other one as sent |
| VenueApplications.NullDefaultsIdempotent | apps/web/src/app/api/venue-applications/route.ts:79-87 | applying the defaults twice is the same as applying them once |
| VenueApplications.ApplyStep | apps/web/src/app/api/venue-applications/route.ts:46-96 | no user gives 401, a missing name or slug 400 and a slug failing `^[a-z0-9-]+$` 400; an application is created exactly when the slug is valid and no venue has it, it gets the caller as applicant, and the review mode defaults to `open` |
| VenueApplications.StoredSlugsValid | apps/web/src/app/api/venue-applications/route.ts:58-88 | every stored application has a valid slug, and a new one a slug no venue had |
| VenueApplications.SameSlugTwice | apps/web/src/app/api/venue-applications/route.ts:63-71 | the slug is checked against venues only, so the same slug can be applied for twice |
| VenueApplications.ApplicationTable.Post | apps/web/src/app/api/venue-applications/route.ts:46-96 | the imperative handler agrees with `ApplyStep` |
| VenueApplications.VisibleIds | apps/web/src/app/api/venue-applications/route.ts:22-30 | only visible applications are listed, newest first |
| VenueApplications.VisibleIdsComplete | apps/web/src/app/api/venue-applications/route.ts:22-30 | every visible application is listed |
| VenueApplications.ListStep | apps/web/src/app/api/venue-applications/route.ts:9-30 | a signed-in caller sees an application exactly when they are an administrator or its applicant; the ids are existing positions, strictly newest first, so none repeats |
| Upload.SafeName | apps/web/src/app/api/upload/route.ts:33 | the name keeps its length; allowed characters are kept, and every other character becomes `_` |
| Upload.SafeNameProperties | apps/web/src/app/api/upload/route.ts:33 | sanitising is idempotent, leaves an already safe name alone, and never produces `/` |
| Upload.Decimal | apps/web/src/app/api/upload/route.ts:32-34 | the timestamp prints as a non-empty run of decimal digits |
| Upload.DecimalRoundTrip | apps/web/src/app/api/upload/route.ts:32-34 | the printed timestamp reads back as the same number |
| Upload.StoragePath | apps/web/src/app/api/upload/route.ts:31-34 | the path is user, category, then timestamp and safe name, and the last segment contains no `/` |
| Upload.UploadStep | apps/web/src/app/api/upload/route.ts:12-58 | no user gives 401 and no file 400; a file is refused as too large exactly when it exceeds 50 MiB; a valid file whose storage call fails gives 500; an upload succeeds exactly when the storage call does, and reports the path, name, size and type |
| Upload.SizeLimitInclusive | apps/web/src/app/api/upload/route.ts:24-29 | a file of exactly 50 MiB is accepted, and one byte more is refused |
| Upload.DefaultCategory | apps/web/src/app/api/upload/route.ts:17-18 | without a category the file goes into the `paper` folder |
| Bibtex.Sanitize | apps/web/src/components/forum/BibtexModal.tsx:18 | the result is no longer than the input and holds no braces |
| Bibtex.SanitizeAppend | apps/web/src/components/forum/BibtexModal.tsx:18 | stripping works piecewise, so every character other than a brace is kept, in order |
| Bibtex.SanitizeIdempotent | apps/web/src/components/forum/BibtexModal.tsx:18 | stripping twice is the same as stripping once |
| Bibtex.SanitizeChar | apps/web/src/components/forum/BibtexModal.tsx:18 | a single character survives exactly when it is not a brace |
| Bibtex.Split | apps/web/src/components/forum/BibtexModal.tsx:19 | splitting on a single space gives at least one piece, and no piece contains a space |
| Bibtex.SplitJoin | apps/web/src/components/forum/BibtexModal.tsx:19 | joining the pieces with single spaces gives back the original string |
| Bibtex.CiteKey | apps/web/src/components/forum/BibtexModal.tsx:19 | the key is author part, year, title part, and both parts are non-empty |
| Bibtex.AuthorKeyShape | apps/web/src/components/forum/BibtexModal.tsx:19 | the author part is the last word of the name, lower-cased; it falls back to `anon` when the name is empty or ends in a space, and is otherwise the non-empty last word lower-cased |
| Bibtex.TitleKeyShape | apps/web/src/components/forum/BibtexModal.tsx:19 | the title part is the first word of the title, lower-cased; it is `paper` exactly when the title is empty, starts with a space, or its first word is "paper" in some case; otherwise it is that word lower-cased and non-empty |
| Bibtex.MakeEntry | apps/web/src/components/forum/BibtexModal.tsx:21-28 | title, author and journal have their braces stripped; the journal defaults to RubbishReview and the URL origin to the public site when there is no window |
| Bibtex.EntryValuesBraceFree | apps/web/src/components/forum/BibtexModal.tsx:22-24 | the title, author and journal values contain no braces, so they cannot close their group early; year and url are not sanitised |
| MobileNav.ItemsPrefixFree | apps/web/src/components/layout/MobileNav.tsx:8-14 | no item's href other than `/` is a prefix of another's |
| MobileNav.AtMostOneActive | apps/web/src/components/layout/MobileNav.tsx:23-26 | whatever the path, at most one item is highlighted |
| MobileNav.HomeExact | apps/web/src/components/layout/MobileNav.tsx:23-26 | Home is highlighted only on `/` itself |
| MobileNav.PrefixNotSegmentAware | apps/web/src/components/layout/MobileNav.tsx:23-26 | the prefix test ignores segments: `/submitted` and `/submit/new` both highlight Submit |

## Findings

| source | as written | input that shows it | evidently intended | confidence | as-written member | corrected member |
|---|---|---|---|---|---|---|
| apps/web/src/components/community/VoteButton.tsx:28 | clicking the direction already voted sends `value: 0`, which `apps/web/src/app/api/vote/route.ts:14-16` rejects with 400, so a vote can never be withdrawn from the button | a viewer with vote +1 clicks up again: the request carries 0, the route answers 400, and the server and the button both still show +1 | send the clicked direction; the route already removes a vote when the value repeats the stored one | not executed | VoteButton.UnvoteRejected | VoteButton.CorrectedRoundTripSynced |

## Left out

- The review pipeline, the forum pages, the venue pages and the rest of the UI are not part of this model. That includes the rubbish-score computation and the hot-score ordering itself.
- Supabase: sessions, row-level security, query execution and result ordering are left out. The session user is a parameter. A table is a map, set or sequence, and "newest first" means reverse insertion order. Database errors are modelled only where the handler branches on them. The modelled ones are the paper insert, the upload storage call and the duplicate invite code (assumed to be a unique-key failure). Every other error path that returns 500 is left out.
- Concurrency is left out: each request is atomic in the model, so races between the lookup and the write in vote, react, bookmark, reports and invite redemption are not captured.
- `hashUserId` does not compute HMAC-SHA256. The digest is a parameter function that yields 64 hex digits. The random bytes for invite codes and the clock are parameters too.
- `anonymizeProfile`'s doc comment promises `display_name` "Anonymous {hash}", but the code stores the bare pseudonym. The model follows the code.
- `toUpperCase` and `toLowerCase` map ASCII letters only; Unicode case mapping is not modelled. `trim` strips the whitespace and line-terminator characters JavaScript strips, including the Unicode spaces.
- Request bodies are modelled as optional strings and optional integers, so JSON values of other types cannot be sent. Not captured: a string or fractional `expires_in_days`, which `*` coerces (apps/web/src/app/api/invite-codes/route.ts:47,57); a numeric `slug`, which passes the regular-expression test; a numeric `target_id`, which is truthy.
- Strings are sequences of code points. UTF-16 surrogate pairs, which `replace` in `safeName` would see as two units, are not distinguished.
- `parseInt` of `page` and `limit` is not modelled: they arrive as optional integers, and a NaN is treated as absent. A negative or zero page or limit is passed through, as in the source.
- The admin profile listing's `ilike` search filter is not modelled.
- The upload's storage call and the public URL it returns are not modelled beyond success or failure. The category is not validated, as in the source.
- `Bibtex.Render` is the template text only; no property is stated about its layout.
- The `fetch` call, `router.refresh()` and React re-rendering in `VoteButton` are left out. The response is a parameter.
- The status of a new report is `pending`, taken to be the column default, since the handler does not set it.
- VoteRoute.SameVoteTwice: sending the same vote twice does not always restore the table. From the opposite stored value it ends with the vote removed, and the lemma states exactly that.
- InviteCodes.QuotaKept: the quota counts expired unused codes as well, as the source's query does.
- InviteCodes.ExpiresInDays: a negative `expires_in_days` is accepted and yields a code that has already expired.
- InviteVerify.OnceOnly: assumes a non-empty user id, since an empty `used_by` would count as unused.

=== FILE: admin_users.dfy ===
/** `/api/admin/users`: system administrators list the profiles (`GET`) and
    change a user's role (`PATCH`). The profiles table maps a user id to its
    row. */
module AdminUsers {
  import opened Js
  import Paging

  datatype Role = User | ContentAdmin | SystemAdmin

  datatype Profile = Profile(username: string, displayName: Option<string>, role: Role)

  /** `["user", "content_admin", "system_admin"].includes(role)`, returning
      the role it names. */
  function ParseRole(s: string): (r: Option<Role>)
    ensures r.Some? <==> s in {"user", "content_admin", "system_admin"}
    ensures r == Some(SystemAdmin) <==> s == "system_admin"
  {
    if s == "user" then Some(User)
    else if s == "content_admin" then Some(ContentAdmin)
    else if s == "system_admin" then Some(SystemAdmin)
    else None
  }

  /** The caller's own profile row is looked up by id; a missing row and any
      role but `system_admin` are refused alike. */
  predicate IsSystemAdmin(profiles: map<string, Profile>, id: string) {
    id in profiles && profiles[id].role == SystemAdmin
  }

  datatype PatchOutcome =
    | Unauthorized          // 401
    | Forbidden             // 403
    | MissingFields         // 400 "userId and role are required"
    | InvalidRole           // 400
    | SelfDemotion          // 400 "Cannot demote yourself"
    | NoSuchUser            // 500: `.single()` finds no row to return
    | Updated(id: string)   // 200 { data }

  datatype Step = Step(profiles: map<string, Profile>, outcome: PatchOutcome)

  /** `PATCH` as a transition on the profiles table; `target` and `role` are
      the body's `userId` and `role`. */
  function PatchStep(profiles: map<string, Profile>, user: Option<string>, target: Option<string>, role: Option<string>): (s: Step)
    ensures user.None? ==> s.outcome == Unauthorized
    ensures user.Some? && !IsSystemAdmin(profiles, user.value) ==> s.outcome == Forbidden
    ensures user.Some? && IsSystemAdmin(profiles, user.value) && !(Present(target) && Present(role)) ==>
      s.outcome == MissingFields
    ensures (user.Some? && IsSystemAdmin(profiles, user.value) && Present(target) && Present(role)
             && ParseRole(role.value).None?) ==> s.outcome == InvalidRole
    ensures (user.Some? && IsSystemAdmin(profiles, user.value) && Present(target) && Present(role)
             && ParseRole(role.value).Some? && !(target.value == user.value && role.value != "system_admin")
             && target.value !in profiles) ==> s.outcome == NoSuchUser
    ensures s.outcome.Updated? <==>
      && user.Some? && IsSystemAdmin(profiles, user.value)
      && Present(target) && Present(role) && ParseRole(role.value).Some?
      && (target.value == user.value ==> role.value == "system_admin")
      && target.value in profiles
    ensures s.outcome == SelfDemotion <==>
      && user.Some? && IsSystemAdmin(profiles, user.value) && Present(target) && Present(role)
      && ParseRole(role.value).Some? && target.value == user.value && role.value != "system_admin"
    ensures !s.outcome.Updated? ==> s.profiles == profiles
    ensures s.outcome.Updated? ==>
      && s.outcome.id == target.value
      && s.profiles == profiles[target.value := profiles[target.value].(role := ParseRole(role.value).value)]
  {
    if user.None? then Step(profiles, Unauthorized)
    else if !IsSystemAdmin(profiles, user.value) then Step(profiles, Forbidden)
    else if !Present(target) || !Present(role) then Step(profiles, MissingFields)
    else if ParseRole(role.value).None? then Step(profiles, InvalidRole)
    else if target.value == user.value && role.value != "system_admin" then Step(profiles, SelfDemotion)
    else if target.value !in profiles then Step(profiles, NoSuchUser)
    else
      var id := target.value;
      Step(profiles[id := profiles[id].(role := ParseRole(role.value).value)], Updated(id))
  }

  /** Only the target's `role` changes: every other row, and the target's
      other fields, stay as they were. */
  lemma OnlyTargetRoleChanges(profiles: map<string, Profile>, user: Option<string>, target: Option<string>,
                              role: Option<string>, id: string)
    requires id in profiles
    ensures var after := PatchStep(profiles, user, target, role).profiles;
      && after.Keys == profiles.Keys
      && after[id] == profiles[id].(role := after[id].role)
      && (target != Some(id) ==> after[id] == profiles[id])
  {
  }

  /** A system administrator cannot demote themself: whatever they send,
      they are still a system administrator afterwards. */
  lemma CallerKeepsAdmin(profiles: map<string, Profile>, user: string, target: Option<string>, role: Option<string>)
    requires IsSystemAdmin(profiles, user)
    ensures IsSystemAdmin(PatchStep(profiles, Some(user), target, role).profiles, user)
  {
  }

  /** Hence the system administrators never die out: if there is one before
      a `PATCH`, there is one after it, whoever calls it. */
  lemma {:induction false} AdminsNeverDieOut(profiles: map<string, Profile>, user: Option<string>, target: Option<string>,
                                             role: Option<string>, admin: string)
    requires IsSystemAdmin(profiles, admin)
    ensures exists a :: IsSystemAdmin(PatchStep(profiles, user, target, role).profiles, a)
  {
    var s := PatchStep(profiles, user, target, role);
    if s.outcome.Updated? {
      CallerKeepsAdmin(profiles, user.value, target, role);
      assert IsSystemAdmin(s.profiles, user.value);
    } else {
      assert IsSystemAdmin(s.profiles, admin);
    }
  }

  /** The profiles table. */
  class ProfileTable {
    var profiles: map<string, Profile>

    constructor (initial: map<string, Profile>)
      ensures profiles == initial
    {
      profiles := initial;
    }

    /** `PATCH`: guards, then the role update of one row. */
    method Patch(user: Option<string>, target: Option<string>, role: Option<string>) returns (outcome: PatchOutcome)
      modifies this
      ensures Step(profiles, outcome) == PatchStep(old(profiles), user, target, role)
    {
      if user.None? {
        return Unauthorized;
      }
      if user.value !in profiles || profiles[user.value].role != SystemAdmin {
        return Forbidden;
      }
      if !Present(target) || !Present(role) {
        return MissingFields;
      }
      var newRole := ParseRole(role.value);
      if newRole.None? {
        return InvalidRole;
      }
      if target.value == user.value && role.value != "system_admin" {
        return SelfDemotion;
      }
      if target.value !in profiles {
        return NoSuchUser;
      }
      profiles := profiles[target.value := profiles[target.value].(role := newRole.value)];
      outcome := Updated(target.value);
    }
  }

  datatype ListOutcome =
    | ListUnauthorized                                  // 401
    | ListForbidden                                     // 403
    | Listing(first: int, last: int, page: int, limit: int)  // the row range asked for

  /** `GET`: the same gate, then the page window, newest profiles first;
      `page` and `limit` default to 1 and 50. */
  function ListStep(profiles: map<string, Profile>, user: Option<string>, pageParam: Option<int>, limitParam: Option<int>): (o: ListOutcome)
    ensures o.Listing? <==> user.Some? && IsSystemAdmin(profiles, user.value)
    ensures user.None? ==> o == ListUnauthorized
    ensures user.Some? && !IsSystemAdmin(profiles, user.value) ==> o == ListForbidden
    ensures o.Listing? ==>
      && (pageParam.None? ==> o.page == 1) && (limitParam.None? ==> o.limit == 50)
      && (pageParam.Some? ==> o.page == pageParam.value) && (limitParam.Some? ==> o.limit == limitParam.value)
      && o.first == Paging.Offset(o.page, o.limit) && o.last - o.first + 1 == o.limit
  {
    if user.None? then ListUnauthorized
    else if !IsSystemAdmin(profiles, user.value) then ListForbidden
    else
      var page := if pageParam.Some? then pageParam.value else 1;
      var limit := if limitParam.Some? then limitParam.value else 50;
      Listing(Paging.Offset(page, limit), Paging.Last(page, limit), page, limit)
  }

  /** For a positive page and limit, every profile position falls in the
      listing of exactly one page. */
  lemma {:induction false} ListingPagesTile(profiles: map<string, Profile>, user: string, page: int, limit: int, i: nat)
    requires IsSystemAdmin(profiles, user) && page >= 1 && limit >= 1
    ensures var o := ListStep(profiles, Some(user), Some(page), Some(limit));
      o.Listing? && (o.first <= i <= o.last <==> page == i / limit + 1)
  {
    Paging.PagesTile(i, limit, page);
  }

  /** The default listing starts at the newest profile and covers fifty. */
  lemma DefaultListing(profiles: map<string, Profile>, user: string)
    requires IsSystemAdmin(profiles, user)
    ensures ListStep(profiles, Some(user), None, None) == Listing(0, 49, 1, 50)
  {
  }
}

=== FILE: anonymize.dfy ===
/** Pseudonymisation of query results: user ids become "RR-" plus eight hex
    digits of a keyed hash, joined profiles are rebuilt without personal data,
    and a viewer always sees their own records unchanged. Everything here is a
    pure function of its inputs; the keyed hash itself is a parameter. */
module Anonymize {
  import opened Js

  /** The JSON-like values a query row can hold. */
  datatype Value =
    | Undefined
    | Null
    | Bool(b: bool)
    | Num(n: int)
    | Str(s: string)
    | Obj(fields: map<string, Value>)

  /** A row: a plain object; a key that is not in the map reads as `undefined`. */
  type Record = map<string, Value>

  /** How a `throw` surfaces: the value returned, or a thrown TypeError. */
  datatype Completion<+T> = Returns(value: T) | Throws

  predicate Truthy(v: Value) {
    match v
    case Undefined => false
    case Null => false
    case Bool(b) => b
    case Num(n) => n != 0
    case Str(s) => s != ""
    case Obj(_) => true
  }

  /** `record[key]` */
  function Get(r: Record, key: string): Value {
    if key in r then r[key] else Undefined
  }

  /** `v.prop` for any value: only objects have properties. */
  function Prop(v: Value, key: string): Value {
    if v.Obj? then Get(v.fields, key) else Undefined
  }

  predicate IsHexDigit(c: char) {
    '0' <= c <= '9' || 'a' <= c <= 'f'
  }

  /** `hmac.digest("hex")` of HMAC-SHA256: 64 lower-case hex digits. */
  type HexDigest = s: string | |s| == 64 && forall i :: 0 <= i < |s| ==> IsHexDigit(s[i])
    witness seq(64, _ => '0')

  /** The keyed hash, which the model does not compute: `hmac(key, message)`
      is the hex digest, and `envSecret` is the ANON_HASH_SECRET variable. */
  datatype Hasher = Hasher(hmac: (string, string) -> HexDigest, envSecret: Option<string>)

  const DefaultSecret := "rubbish-review-default-anon-secret-change-me"

  /** An unset or empty ANON_HASH_SECRET falls back to the built-in secret. */
  function Secret(h: Hasher): (key: string)
    ensures Present(h.envSecret) ==> key == h.envSecret.value
    ensures !Present(h.envSecret) ==> key == DefaultSecret
  {
    OrElse(h.envSecret, DefaultSecret)
  }

  predicate IsPseudonym(s: string) {
    |s| == 11 && s[..3] == "RR-" && forall i :: 3 <= i < 11 ==> IsHexDigit(s[i])
  }

  /** `hashUserId` */
  function HashUserId(h: Hasher, uuid: string): (r: string)
    ensures IsPseudonym(r)
  {
    "RR-" + h.hmac(Secret(h), uuid)[..8]
  }

  /** Two users share a pseudonym exactly when the first 32 bits of their
      digests agree: the hash keeps no more of the digest than that. */
  lemma PseudonymCollision(h: Hasher, a: string, b: string)
    ensures HashUserId(h, a) == HashUserId(h, b)
        <==> h.hmac(Secret(h), a)[..8] == h.hmac(Secret(h), b)[..8]
  {
    var pa, pb := HashUserId(h, a), HashUserId(h, b);
    assert pa[3..] == h.hmac(Secret(h), a)[..8];
    assert pb[3..] == h.hmac(Secret(h), b)[..8];
  }

  /** The keys of a rebuilt profile. */
  const ProfileKeys: set<string> :=
    {"id", "username", "display_name", "avatar_url", "bio", "institution",
     "research_field", "title", "karma", "created_at"}

  /** The profile `anonymizeProfile` builds for a user with pseudonym `anonId`
      whose `created_at` was `createdAt`. */
  predicate IsScrubbedProfile(f: Record, anonId: string, createdAt: Value) {
    && f.Keys == ProfileKeys
    && f["id"] == Str(anonId) && f["username"] == Str(anonId) && f["display_name"] == Str(anonId)
    && f["avatar_url"] == Null && f["bio"] == Null && f["institution"] == Null
    && f["research_field"] == Null && f["title"] == Null
    && f["karma"] == Num(0)
    && f["created_at"] == (if createdAt == Undefined || createdAt == Null then Null else createdAt)
  }

  /** `anonymizeProfile`: null for a missing profile; a TypeError when the
      profile has no string `id` for the hash to consume; otherwise the
      scrubbed profile. */
  function AnonymizeProfile(h: Hasher, profile: Value): (r: Completion<Value>)
    ensures !Truthy(profile) ==> r == Returns(Null)
    ensures Truthy(profile) && !Prop(profile, "id").Str? ==> r == Throws
    ensures Truthy(profile) && Prop(profile, "id").Str? ==>
      r.Returns? && r.value.Obj? &&
      IsScrubbedProfile(r.value.fields, HashUserId(h, Prop(profile, "id").s), Prop(profile, "created_at"))
  {
    if !Truthy(profile) then Returns(Null)
    else
      match Prop(profile, "id")
      case Str(realId) =>
        var anonId := HashUserId(h, realId);
        var createdAt := Prop(profile, "created_at");
        Returns(Obj(map[
          "id" := Str(anonId),
          "username" := Str(anonId),
          "display_name" := Str(anonId),
          "avatar_url" := Null,
          "bio" := Null,
          "institution" := Null,
          "research_field" := Null,
          "title" := Null,
          "karma" := Num(0),
          "created_at" := if createdAt == Undefined || createdAt == Null then Null else createdAt]))
      case _ => Throws
  }

  /** Nothing of a profile but its id (through the hash) and its creation time
      reaches the anonymised copy. */
  lemma ProfileForgetsPersonalData(h: Hasher, p: Record, q: Record)
    requires Get(p, "id") == Get(q, "id") && Get(p, "created_at") == Get(q, "created_at")
    ensures AnonymizeProfile(h, Obj(p)) == AnonymizeProfile(h, Obj(q))
  {
    var a, b := AnonymizeProfile(h, Obj(p)), AnonymizeProfile(h, Obj(q));
    if a.Returns? {
      assert a.value.fields == b.value.fields;
    }
  }

  /** The viewer owns the record: `currentUserId && realId === currentUserId`. */
  predicate IsSelf(record: Record, idField: string, currentUserId: Option<string>) {
    Present(currentUserId) && Get(record, idField) == Str(currentUserId.value)
  }

  /** `realId ? hashUserId(realId) : null` */
  function AnonId(h: Hasher, realId: Value): (r: Completion<Value>)
    ensures !Truthy(realId) ==> r == Returns(Null)
    ensures Truthy(realId) && realId.Str? ==> r.Returns? && r.value.Str? && r.value.s == HashUserId(h, realId.s)
    ensures Truthy(realId) && !realId.Str? ==> r == Throws
  {
    if !Truthy(realId) then Returns(Null)
    else if realId.Str? then Returns(Str(HashUserId(h, realId.s)))
    else Throws
  }

  /** `anonymizeRecord`: the viewer's own record comes back as it is; any other
      gets a pseudonymous id and a scrubbed profile, and every other field is
      copied. */
  function AnonymizeRecord(h: Hasher, record: Record, profileKey: string, idField: string,
                           currentUserId: Option<string>): (r: Completion<Record>)
    ensures IsSelf(record, idField, currentUserId) ==> r == Returns(record)
    ensures !IsSelf(record, idField, currentUserId) ==>
      (r.Returns? <==> AnonId(h, Get(record, idField)).Returns?
                       && AnonymizeProfile(h, Get(record, profileKey)).Returns?)
    ensures !IsSelf(record, idField, currentUserId) && r.Returns? ==>
      && r.value.Keys == record.Keys + {idField, profileKey}
      && r.value[profileKey] == AnonymizeProfile(h, Get(record, profileKey)).value
      && (idField != profileKey ==> r.value[idField] == AnonId(h, Get(record, idField)).value)
      && (forall k :: k in record && k != idField && k != profileKey ==> r.value[k] == record[k])
  {
    if IsSelf(record, idField, currentUserId) then Returns(record)
    else
      match AnonId(h, Get(record, idField))
      case Throws => Throws
      case Returns(anonId) =>
        match AnonymizeProfile(h, Get(record, profileKey))
        case Throws => Throws
        case Returns(profile) => Returns(record[idField := anonId][profileKey := profile])
  }

  /** `anonymizeList`: `records.map(...)`, which throws if any element does. */
  function AnonymizeList(h: Hasher, records: seq<Record>, profileKey: string, idField: string,
                         currentUserId: Option<string>): (r: Completion<seq<Record>>)
    ensures r.Returns? <==>
      forall i :: 0 <= i < |records| ==> AnonymizeRecord(h, records[i], profileKey, idField, currentUserId).Returns?
    ensures r.Returns? ==>
      && |r.value| == |records|
      && forall i :: 0 <= i < |records| ==>
           r.value[i] == AnonymizeRecord(h, records[i], profileKey, idField, currentUserId).value
  {
    if records == [] then Returns([])
    else
      match AnonymizeRecord(h, records[0], profileKey, idField, currentUserId)
      case Throws => Throws
      case Returns(first) =>
        match AnonymizeList(h, records[1..], profileKey, idField, currentUserId)
        case Throws => Throws
        case Returns(rest) => Returns([first] + rest)
  }

  /** Within one list, records of the same other user carry the same
      pseudonym, so one person's records stay linkable without naming them;
      and a real id that is not itself shaped like a pseudonym never shows. */
  lemma {:induction false} ListPseudonymsConsistent(h: Hasher, records: seq<Record>, profileKey: string,
                                                    idField: string, currentUserId: Option<string>, i: nat, j: nat)
    requires i < |records| && j < |records| && idField != profileKey
    requires Get(records[i], idField) == Get(records[j], idField)
    requires Get(records[i], idField).Str? && Get(records[i], idField).s != ""
    requires !IsSelf(records[i], idField, currentUserId)
    requires AnonymizeList(h, records, profileKey, idField, currentUserId).Returns?
    ensures var out := AnonymizeList(h, records, profileKey, idField, currentUserId).value;
      && out[i][idField] == out[j][idField] == Str(HashUserId(h, Get(records[i], idField).s))
      && (!IsPseudonym(Get(records[i], idField).s) ==> out[i][idField] != Get(records[i], idField))
  {
    var out := AnonymizeList(h, records, profileKey, idField, currentUserId).value;
    assert out[i] == AnonymizeRecord(h, records[i], profileKey, idField, currentUserId).value;
    assert out[j] == AnonymizeRecord(h, records[j], profileKey, idField, currentUserId).value;
  }
}

=== FILE: bibtex.dfy ===
/** The BibTeX citation a paper page offers: a cite key built from the last
    word of the author's name, the year and the first word of the title, and
    an `@article` entry whose brace-delimited values have their braces
    stripped. Case mapping is ASCII only. */
module Bibtex {
  import opened Js

  predicate IsBrace(c: char) { c == '{' || c == '}' }

  /** `s.replace(/[{}]/g, "")` */
  function Sanitize(s: string): (r: string)
    ensures |r| <= |s|
    ensures forall i :: 0 <= i < |r| ==> !IsBrace(r[i])
  {
    if s == [] then []
    else Sanitize(s[..|s| - 1]) + (if IsBrace(s[|s| - 1]) then [] else [s[|s| - 1]])
  }

  /** Stripping works piecewise, so every other character is kept, in
      order. */
  lemma {:induction false} SanitizeAppend(a: string, b: string)
    ensures Sanitize(a + b) == Sanitize(a) + Sanitize(b)
  {
    if b == [] {
      assert a + b == a;
    } else {
      assert (a + b)[..|a + b| - 1] == a + b[..|b| - 1];
      assert (a + b)[|a + b| - 1] == b[|b| - 1];
      SanitizeAppend(a, b[..|b| - 1]);
    }
  }

  /** A brace-free string is left alone; hence stripping is idempotent. */
  lemma {:induction false} SanitizeBraceFree(s: string)
    requires forall i :: 0 <= i < |s| ==> !IsBrace(s[i])
    ensures Sanitize(s) == s
  {
    if s != [] {
      SanitizeBraceFree(s[..|s| - 1]);
    }
  }

  lemma SanitizeIdempotent(s: string)
    ensures Sanitize(Sanitize(s)) == Sanitize(s)
  {
    SanitizeBraceFree(Sanitize(s));
  }

  /** Only braces go: a single character survives exactly when it is not a
      brace. */
  lemma SanitizeChar(c: char)
    ensures Sanitize([c]) == if IsBrace(c) then [] else [c]
  {
    assert [c][..0] == [];
  }

  /** `s.split(" ")`: the pieces between single spaces, empty ones included;
      never an empty list. */
  function Split(s: string): (parts: seq<string>)
    ensures |parts| >= 1
    ensures forall k :: 0 <= k < |parts| ==> ' ' !in parts[k]
  {
    if s == [] then [""]
    else
      var parts := Split(s[..|s| - 1]);
      var c := s[|s| - 1];
      if c == ' ' then parts + [""]
      else parts[..|parts| - 1] + [parts[|parts| - 1] + [c]]
  }

  /** `parts.join(" ")` */
  function Join(parts: seq<string>): string
    requires |parts| >= 1
  {
    if |parts| == 1 then parts[0] else Join(parts[..|parts| - 1]) + " " + parts[|parts| - 1]
  }

  /** Joining after a new last piece. */
  lemma JoinSnoc(parts: seq<string>, x: string)
    requires |parts| >= 1
    ensures Join(parts + [x]) == Join(parts) + " " + x
  {
    assert (parts + [x])[..|parts|] == parts;
  }

  /** Joining after extending the last piece by one character. */
  lemma JoinGrowLast(parts: seq<string>, c: char)
    requires |parts| >= 1
    ensures Join(parts[..|parts| - 1] + [parts[|parts| - 1] + [c]]) == Join(parts) + [c]
  {
    var n := |parts|;
    var grown := parts[..n - 1] + [parts[n - 1] + [c]];
    if n > 1 {
      assert grown[..n - 1] == parts[..n - 1];
    }
  }

  /** Splitting loses nothing: joining the pieces with spaces gives the
      string back. */
  lemma {:induction false} SplitJoin(s: string)
    ensures Join(Split(s)) == s
  {
    if s != [] {
      var s' := s[..|s| - 1];
      SplitJoin(s');
      if s[|s| - 1] == ' ' {
        JoinSnoc(Split(s'), "");
      } else {
        JoinGrowLast(Split(s'), s[|s| - 1]);
      }
      assert s == s' + [s[|s| - 1]];
    }
  }

  /** `x || fallback` for a string. */
  function OrDefault(x: string, fallback: string): (r: string)
    ensures r == "" ==> fallback == ""
  {
    if x == "" then fallback else x
  }

  /** The three parts of the cite key. */
  function AuthorKey(authorName: string): (k: string) {
    OrDefault(ToLower(Split(authorName)[|Split(authorName)| - 1]), "anon")
  }

  function TitleKey(title: string): (k: string) {
    OrDefault(ToLower(Split(title)[0]), "paper")
  }

  /** `` `${last author word}${year}${first title word}` `` */
  function CiteKey(authorName: string, year: string, title: string): (key: string)
    ensures key == AuthorKey(authorName) + year + TitleKey(title)
    ensures |AuthorKey(authorName)| > 0 && |TitleKey(title)| > 0
  {
    AuthorKey(authorName) + year + TitleKey(title)
  }

  /** The author part is the last space-separated word of the name, lower
      cased, without spaces; it falls back to `anon` when that word is empty,
      as when the name ends in a space (a last word `Anon` gives the same
      key). */
  lemma {:induction false} AuthorKeyShape(authorName: string)
    ensures ' ' !in AuthorKey(authorName)
    ensures forall i :: 0 <= i < |AuthorKey(authorName)| ==> !IsAsciiUpper(AuthorKey(authorName)[i])
    ensures (authorName == [] || authorName[|authorName| - 1] == ' ') ==> AuthorKey(authorName) == "anon"
    ensures authorName != [] && authorName[|authorName| - 1] != ' ' ==>
      AuthorKey(authorName) == ToLower(Split(authorName)[|Split(authorName)| - 1]) && |AuthorKey(authorName)| > 0
  {
    var parts := Split(authorName);
    var last := parts[|parts| - 1];
    assert ' ' !in last;
    if authorName != [] && authorName[|authorName| - 1] != ' ' {
      assert |last| > 0;
    }
  }

  /** The title part is the first word of the title, lower cased; it falls
      back to `paper` when the title is empty or starts with a space, and is
      `paper` otherwise only when that first word is `paper` in some case. */
  lemma {:induction false} TitleKeyShape(title: string)
    ensures ' ' !in TitleKey(title)
    ensures TitleKey(title) == "paper" <==> (title == [] || title[0] == ' ' || ToLower(Split(title)[0]) == "paper")
    ensures title != [] && title[0] != ' ' ==> TitleKey(title) == ToLower(Split(title)[0]) && |TitleKey(title)| > 0
  {
    FirstPieceEmpty(title);
  }

  lemma {:induction false} FirstPieceEmpty(s: string)
    ensures Split(s)[0] == "" <==> (s == [] || s[0] == ' ')
  {
    if s != [] {
      var s' := s[..|s| - 1];
      FirstPieceEmpty(s');
      if |s'| > 0 {
        assert s'[0] == s[0];
      }
    }
  }

  /** The fields of the `@article` entry; `origin` is `window.location.origin`,
      `None` when rendered without a window. */
  datatype Entry = Entry(key: string, title: string, author: string, journal: string, year: string, url: string, note: string)

  function MakeEntry(paperId: string, title: string, authorName: string, year: string,
                     venueName: Option<string>, origin: Option<string>): (e: Entry)
    ensures e.key == CiteKey(authorName, year, title)
    ensures e.title == Sanitize(title) && e.author == Sanitize(authorName)
    ensures e.journal == Sanitize(OrElse(venueName, "RubbishReview"))
    ensures !Present(venueName) ==> e.journal == "RubbishReview"
    ensures e.url == (if origin.Some? then origin.value else "https://rubbishreview.org") + "/paper/" + paperId
  {
    SanitizeBraceFree("RubbishReview");
    Entry(CiteKey(authorName, year, title), Sanitize(title), Sanitize(authorName),
          Sanitize(OrElse(venueName, "RubbishReview")), year,
          (if origin.Some? then origin.value else "https://rubbishreview.org") + "/paper/" + paperId, "Certified Rubbish")
  }

  /** The braced values cannot end their group early: title, author and
      journal contain no braces. */
  lemma EntryValuesBraceFree(paperId: string, title: string, authorName: string, year: string,
                             venueName: Option<string>, origin: Option<string>)
    ensures var e := MakeEntry(paperId, title, authorName, year, venueName, origin);
      forall i :: 0 <= i < |e.title + e.author + e.journal| ==> !IsBrace((e.title + e.author + e.journal)[i])
  {
  }

  /** The entry text, line by line as the template lays it out. */
  function Render(e: Entry): string {
    "@article{" + e.key + ",\n"
    + "  title     = {" + e.title + "},\n"
    + "  author    = {" + e.author + "},\n"
    + "  journal   = {" + e.journal + "},\n"
    + "  year      = {" + e.year + "},\n"
    + "  url       = {" + e.url + "},\n"
    + "  note      = {" + e.note + "}\n"
    + "}"
  }
}

=== FILE: bookmark_route.dfy ===
/** `POST /api/bookmark`: a signed-in user toggles a bookmark on a paper. The
    bookmarks table is a set of (user, paper) pairs. */
module BookmarkRoute {
  import opened Js

  datatype Bookmark = Bookmark(userId: string, paperId: string)

  datatype Outcome =
    | Unauthorized                // 401
    | PaperIdRequired             // 400
    | Bookmarked(bookmarked: bool) // 200 { bookmarked: false } or 201 { bookmarked: true }

  function Status(o: Outcome): (code: int)
    ensures code == 201 <==> o == Bookmarked(true)
  {
    match o
    case Unauthorized => 401
    case PaperIdRequired => 400
    case Bookmarked(b) => if b then 201 else 200
  }

  datatype Step = Step(bookmarks: set<Bookmark>, outcome: Outcome)

  /** The handler as a transition on the bookmarks table; `paperId` is the
      request's `paper_id`. */
  function Toggle(bookmarks: set<Bookmark>, user: Option<string>, paperId: Option<string>): (s: Step)
    ensures user.None? ==> s == Step(bookmarks, Unauthorized)
    ensures user.Some? && !Present(paperId) ==> s == Step(bookmarks, PaperIdRequired)
    ensures user.Some? && Present(paperId) ==>
      var b := Bookmark(user.value, paperId.value);
      s.outcome == Bookmarked(b !in bookmarks)
      && s.bookmarks == if b in bookmarks then bookmarks - {b} else bookmarks + {b}
  {
    if user.None? then Step(bookmarks, Unauthorized)
    else if !Present(paperId) then Step(bookmarks, PaperIdRequired)
    else
      var b := Bookmark(user.value, paperId.value);
      if b in bookmarks then Step(bookmarks - {b}, Bookmarked(false))
      else Step(bookmarks + {b}, Bookmarked(true))
  }

  /** The `bookmarked` flag says whether the pair is bookmarked after the
      call. */
  lemma FlagIsMembership(bookmarks: set<Bookmark>, user: string, paperId: string)
    requires paperId != ""
    ensures var s := Toggle(bookmarks, Some(user), Some(paperId));
      s.outcome.Bookmarked? && (s.outcome.bookmarked <==> Bookmark(user, paperId) in s.bookmarks)
  {
  }

  /** Toggling twice is the identity on the bookmarks table. */
  lemma {:induction false} ToggleTwiceRestores(bookmarks: set<Bookmark>, user: Option<string>, paperId: Option<string>)
    ensures Toggle(Toggle(bookmarks, user, paperId).bookmarks, user, paperId).bookmarks == bookmarks
  {
    if user.Some? && Present(paperId) {
      var b := Bookmark(user.value, paperId.value);
      if b in bookmarks {
        assert (bookmarks - {b}) + {b} == bookmarks;
      } else {
        assert (bookmarks + {b}) - {b} == bookmarks;
      }
    }
  }

  /** Only the caller's pair for that paper can change. */
  lemma OthersUntouched(bookmarks: set<Bookmark>, user: Option<string>, paperId: Option<string>, other: Bookmark)
    requires !(user.Some? && Present(paperId) && other == Bookmark(user.value, paperId.value))
    ensures other in Toggle(bookmarks, user, paperId).bookmarks <==> other in bookmarks
  {
  }

  /** The bookmarks table. */
  class BookmarkTable {
    var bookmarks: set<Bookmark>

    constructor ()
      ensures bookmarks == {}
    {
      bookmarks := {};
    }

    /** `POST`: look the pair up, then delete it or insert it. */
    method Post(user: Option<string>, paperId: Option<string>) returns (outcome: Outcome)
      modifies this
      ensures Step(bookmarks, outcome) == Toggle(old(bookmarks), user, paperId)
    {
      if user.None? {
        return Unauthorized;
      }
      if !Present(paperId) {
        return PaperIdRequired;
      }
      var b := Bookmark(user.value, paperId.value);
      if b in bookmarks {
        bookmarks := bookmarks - {b};
        return Bookmarked(false);
      }
      bookmarks := bookmarks + {b};
      outcome := Bookmarked(true);
    }
  }
}

=== FILE: invite_codes.dfy ===
/** `POST /api/invite-codes`: a signed-in user generates an invite code of the
    form `RR-XXXX-XXXX`, each X drawn from a 32-letter alphabet by a random
    byte, as long as they hold fewer than five unused codes. The invite-codes
    table maps a code to its row. The random bytes and the clock are
    parameters. */
module InviteCodes {
  import opened Js

  type Byte = x: int | 0 <= x < 256

  /** A row of the invite-codes table; times are milliseconds since the
      epoch. */
  datatype Invite = Invite(creatorId: string, usedBy: Option<string>, usedAt: Option<int>, expiresAt: Option<int>)

  const Alphabet: string := "ABCDEFGHJKLMNPQRSTUVWXYZ23456789"

  const MaxUnused := 5
  const DefaultDays := 30
  const MillisPerDay := 86400000

  /** The alphabet has 32 letters and leaves out the look-alikes I, O, 0
      and 1. */
  lemma AlphabetFacts()
    ensures |Alphabet| == 32
    ensures 'I' !in Alphabet && 'O' !in Alphabet && '0' !in Alphabet && '1' !in Alphabet
  {
    assert forall i | 0 <= i < |Alphabet| :: Alphabet[i] !in {'I', 'O', '0', '1'};
  }

  /** Every letter of the alphabet is an upper-case letter or a digit from 2
      to 9, so none is lower case or whitespace. */
  lemma AlphabetUpper()
    ensures forall i :: 0 <= i < |Alphabet| ==> IsAsciiUpper(Alphabet[i]) || '2' <= Alphabet[i] <= '9'
    ensures forall i :: 0 <= i < |Alphabet| ==> !IsAsciiLower(Alphabet[i]) && !IsSpace(Alphabet[i])
  {
    assert forall i :: 0 <= i < |Alphabet| ==> IsAsciiUpper(Alphabet[i]) || '2' <= Alphabet[i] <= '9';
  }

  /** The characters `randomString` builds from the given bytes: byte b picks
      `chars[b % 32]`. */
  function RandomChars(bytes: seq<Byte>): (s: string)
    ensures |s| == |bytes|
    ensures forall i :: 0 <= i < |bytes| ==> s[i] == Alphabet[bytes[i] % |Alphabet|]
  {
    if bytes == [] then [] else RandomChars(bytes[..|bytes| - 1]) + [Alphabet[bytes[|bytes| - 1] % |Alphabet|]]
  }

  /** `randomString(len)`, given the `len` bytes that `randomBytes(len)`
      returned. */
  method RandomString(len: nat, bytes: seq<Byte>) returns (result: string)
    requires |bytes| == len
    ensures |result| == len
    ensures forall i :: 0 <= i < len ==> result[i] == Alphabet[bytes[i] % 32]
  {
    var chars := Alphabet;
    result := "";
    for i := 0 to len
      invariant |result| == i
      invariant forall k :: 0 <= k < i ==> result[k] == Alphabet[bytes[k] % 32]
    {
      result := result + [chars[bytes[i] % |chars|]];
    }
  }

  /** Every character of a random part is in the alphabet, so never one of
      the look-alikes. */
  lemma RandomCharsInAlphabet(bytes: seq<Byte>)
    ensures forall i :: 0 <= i < |bytes| ==> RandomChars(bytes)[i] in Alphabet
    ensures forall i :: 0 <= i < |bytes| ==> RandomChars(bytes)[i] !in "IO01"
  {
    AlphabetFacts();
    forall i | 0 <= i < |bytes| ensures RandomChars(bytes)[i] !in "IO01" {
      assert RandomChars(bytes)[i] == Alphabet[bytes[i] % |Alphabet|];
    }
  }

  /** `toUpperCase` leaves a string without lower-case letters as it is. */
  lemma UpperNoop(s: string)
    requires forall i :: 0 <= i < |s| ==> !IsAsciiLower(s[i])
    ensures ToUpper(s) == s
  {
  }

  /** `` `RR-${a}-${b}`.toUpperCase() `` */
  function CodeOf(a: string, b: string): string {
    ToUpper("RR-" + a + "-" + b)
  }

  /** The shape of a generated code: "RR-", four alphabet letters, "-", four
      alphabet letters. */
  predicate IsInviteCode(code: string) {
    && |code| == 12
    && code[..3] == "RR-" && code[7] == '-'
    && (forall i :: 3 <= i < 7 ==> code[i] in Alphabet)
    && (forall i :: 8 <= i < 12 ==> code[i] in Alphabet)
  }

  /** The pieces of `RR-a-b` for two four-letter parts. */
  lemma CodeParts(a: string, b: string)
    requires |a| == 4 && |b| == 4
    ensures var raw := "RR-" + a + "-" + b;
      && |raw| == 12 && raw[..3] == "RR-" && raw[7] == '-' && raw[3..7] == a && raw[8..] == b
      && (forall i :: 3 <= i < 7 ==> raw[i] == a[i - 3])
      && (forall i :: 8 <= i < 12 ==> raw[i] == b[i - 8])
  {
    var raw := "RR-" + a + "-" + b;
    assert raw[3..7] == a;
    assert raw[8..] == b;
  }

  /** A string of alphabet letters has no lower-case letter. */
  lemma AlphabetStringNotLower(s: string)
    requires forall i :: 0 <= i < |s| ==> s[i] in Alphabet
    ensures forall i :: 0 <= i < |s| ==> !IsAsciiLower(s[i])
  {
    AlphabetUpper();
    forall i | 0 <= i < |s| ensures !IsAsciiLower(s[i]) {
      var k :| 0 <= k < |Alphabet| && Alphabet[k] == s[i];
    }
  }

  /** `RR-a-b` upper-cases to itself when both parts are alphabet letters. */
  lemma {:induction false} CodeUpperNoop(a: string, b: string)
    requires |a| == 4 && |b| == 4
    requires forall i :: 0 <= i < 4 ==> a[i] in Alphabet && b[i] in Alphabet
    ensures ToUpper("RR-" + a + "-" + b) == "RR-" + a + "-" + b
  {
    var raw := "RR-" + a + "-" + b;
    CodeParts(a, b);
    AlphabetStringNotLower(a);
    AlphabetStringNotLower(b);
    forall i | 0 <= i < |raw| ensures !IsAsciiLower(raw[i]) {
      if 3 <= i < 7 {
        assert raw[i] == a[i - 3];
      } else if 8 <= i {
        assert raw[i] == b[i - 8];
      }
    }
    UpperNoop(raw);
  }

  /** The upper-casing changes nothing, the code has the documented shape,
      and the two random parts can be read back out of it. */
  lemma {:induction false} GeneratedCodeShape(b1: seq<Byte>, b2: seq<Byte>)
    requires |b1| == 4 && |b2| == 4
    ensures var code := CodeOf(RandomChars(b1), RandomChars(b2));
      && code == "RR-" + RandomChars(b1) + "-" + RandomChars(b2)
      && IsInviteCode(code)
      && code[3..7] == RandomChars(b1) && code[8..] == RandomChars(b2)
  {
    var a, b := RandomChars(b1), RandomChars(b2);
    RandomCharsInAlphabet(b1);
    RandomCharsInAlphabet(b2);
    CodeUpperNoop(a, b);
    CodeParts(a, b);
  }

  /** The codes `user` created that nobody has used yet (`used_by` null),
      whether or not they have expired. */
  function UnusedCodes(invites: map<string, Invite>, user: string): (codes: set<string>)
    ensures forall c :: c in codes <==> c in invites && invites[c].creatorId == user && invites[c].usedBy.None?
  {
    set c | c in invites && invites[c].creatorId == user && invites[c].usedBy.None?
  }

  /** `body.expires_in_days || 30`: an absent or zero value means 30. */
  function ExpiresInDays(requested: Option<int>): (days: int)
    ensures days != 0
    ensures requested.Some? && requested.value != 0 ==> days == requested.value
    ensures !(requested.Some? && requested.value != 0) ==> days == DefaultDays
  {
    if requested.Some? && requested.value != 0 then requested.value else DefaultDays
  }

  /** The largest distance from the epoch, in milliseconds, that a
      JavaScript `Date` can hold (section 21.4.1.1 of ECMA-262); outside it
      the date is invalid and `toISOString` throws a `RangeError`. */
  const MaxTimeValue := 8640000000000000

  predicate ValidTime(t: int) {
    -MaxTimeValue <= t <= MaxTimeValue
  }

  /** `Date.now() + expiresInDays * 86400000` */
  function ExpiryTime(now: int, requestedDays: Option<int>): (t: int)
    ensures t - now == ExpiresInDays(requestedDays) * MillisPerDay
  {
    now + ExpiresInDays(requestedDays) * MillisPerDay
  }

  datatype Outcome =
    | Unauthorized             // 401
    | QuotaReached             // 400
    | ExpiryOutOfRange         // 500: the expiry date cannot be formatted
    | InsertFailed             // 500: the code is already taken
    | Created(code: string)    // 201

  datatype Step = Step(invites: map<string, Invite>, outcome: Outcome)

  /** The handler as a transition on the invite-codes table. `b1` and `b2`
      are the bytes of the two `randomBytes(4)` calls, `now` the clock. */
  function GenerateStep(invites: map<string, Invite>, user: Option<string>, requestedDays: Option<int>,
                    b1: seq<Byte>, b2: seq<Byte>, now: int): (s: Step)
    requires |b1| == 4 && |b2| == 4
    ensures user.None? ==> s == Step(invites, Unauthorized)
    ensures user.Some? && |UnusedCodes(invites, user.value)| >= MaxUnused ==> s == Step(invites, QuotaReached)
    ensures user.Some? && |UnusedCodes(invites, user.value)| < MaxUnused && !ValidTime(ExpiryTime(now, requestedDays)) ==>
      s == Step(invites, ExpiryOutOfRange)
    ensures user.Some? && |UnusedCodes(invites, user.value)| < MaxUnused && ValidTime(ExpiryTime(now, requestedDays)) ==>
      && (s.outcome.Created? <==> CodeOf(RandomChars(b1), RandomChars(b2)) !in invites)
      && (!s.outcome.Created? ==> s.outcome == InsertFailed)
    ensures s.outcome.Created? ==>
      && user.Some?
      && s.outcome.code == CodeOf(RandomChars(b1), RandomChars(b2))
      && s.outcome.code !in invites
      && ValidTime(ExpiryTime(now, requestedDays))
      && s.invites == invites[s.outcome.code := Invite(user.value, None, None,
                                                          Some(now + ExpiresInDays(requestedDays) * MillisPerDay))]
    ensures !s.outcome.Created? ==> s.invites == invites
  {
    if user.None? then Step(invites, Unauthorized)
    else if |UnusedCodes(invites, user.value)| >= MaxUnused then Step(invites, QuotaReached)
    else
      var days := ExpiresInDays(requestedDays);
      var code := CodeOf(RandomChars(b1), RandomChars(b2));
      var expiresAt := now + days * MillisPerDay;
      if !ValidTime(expiresAt) then Step(invites, ExpiryOutOfRange)
      else if code in invites then Step(invites, InsertFailed)
      else Step(invites[code := Invite(user.value, None, None, Some(expiresAt))], Created(code))
  }

  /** A day count far enough out makes the handler fail, whatever the clock
      reads within the range of a `Date`: a billion days is past the range. */
  lemma HugeExpiryFails(invites: map<string, Invite>, user: string, b1: seq<Byte>, b2: seq<Byte>, now: int)
    requires |b1| == 4 && |b2| == 4
    requires |UnusedCodes(invites, user)| < MaxUnused && ValidTime(now)
    ensures GenerateStep(invites, Some(user), Some(1000000000), b1, b2, now) == Step(invites, ExpiryOutOfRange)
    ensures GenerateStep(invites, Some(user), Some(-1000000000), b1, b2, now) == Step(invites, ExpiryOutOfRange)
  {
  }

  /** The quota holds: nobody ever holds more than five unused codes, and a
      successful call adds exactly one to the caller's unused codes. */
  lemma {:induction false} QuotaKept(invites: map<string, Invite>, user: Option<string>, requestedDays: Option<int>,
                                     b1: seq<Byte>, b2: seq<Byte>, now: int, u: string)
    requires |b1| == 4 && |b2| == 4
    requires |UnusedCodes(invites, u)| <= MaxUnused
    ensures var s := GenerateStep(invites, user, requestedDays, b1, b2, now);
      && |UnusedCodes(s.invites, u)| <= MaxUnused
      && (s.outcome.Created? && user == Some(u) ==>
            UnusedCodes(s.invites, u) == UnusedCodes(invites, u) + {s.outcome.code})
      && (!(s.outcome.Created? && user == Some(u)) ==> UnusedCodes(s.invites, u) == UnusedCodes(invites, u))
  {
    var s := GenerateStep(invites, user, requestedDays, b1, b2, now);
    if s.outcome.Created? {
      var row := Invite(user.value, None, None, Some(now + ExpiresInDays(requestedDays) * MillisPerDay));
      UnusedAfterInsert(invites, s.outcome.code, row, u);
    }
  }

  /** Inserting a fresh row adds its code to its creator's unused codes when
      it is unused, and changes nobody else's. */
  lemma UnusedAfterInsert(invites: map<string, Invite>, code: string, row: Invite, u: string)
    requires code !in invites
    ensures row.creatorId == u && row.usedBy.None? ==>
      UnusedCodes(invites[code := row], u) == UnusedCodes(invites, u) + {code}
      && |UnusedCodes(invites[code := row], u)| == |UnusedCodes(invites, u)| + 1
    ensures !(row.creatorId == u && row.usedBy.None?) ==>
      UnusedCodes(invites[code := row], u) == UnusedCodes(invites, u)
  {
    if row.creatorId == u && row.usedBy.None? {
      assert UnusedCodes(invites[code := row], u) == UnusedCodes(invites, u) + {code};
    } else {
      assert UnusedCodes(invites[code := row], u) == UnusedCodes(invites, u);
    }
  }

  /** A created code expires `days` days after `now`, which lies in the
      future exactly when the requested number of days is positive (or not
      given); a negative request creates an already-expired code. */
  lemma ExpiryAfterCreation(requestedDays: Option<int>, now: int)
    ensures var expires := now + ExpiresInDays(requestedDays) * MillisPerDay;
      (expires > now <==> ExpiresInDays(requestedDays) > 0)
      && (requestedDays.None? ==> expires == now + 30 * 86400000)
  {
  }

  /** The invite-codes table, shared with the redemption handler. */
  class InviteTable {
    var invites: map<string, Invite>

    constructor (initial: map<string, Invite>)
      ensures invites == initial
    {
      invites := initial;
    }

    /** `POST`: quota check, code construction and insert. */
    method Generate(user: Option<string>, requestedDays: Option<int>, b1: seq<Byte>, b2: seq<Byte>, now: int)
      returns (outcome: Outcome)
      requires |b1| == 4 && |b2| == 4
      modifies this
      ensures Step(invites, outcome) == GenerateStep(old(invites), user, requestedDays, b1, b2, now)
    {
      if user.None? {
        return Unauthorized;
      }
      var count := |UnusedCodes(invites, user.value)|;
      if count >= MaxUnused {
        return QuotaReached;
      }
      var expiresInDays := ExpiresInDays(requestedDays);
      var part1 := RandomString(4, b1);
      var part2 := RandomString(4, b2);
      assert part1 == RandomChars(b1) && part2 == RandomChars(b2);
      var code := ToUpper("RR-" + part1 + "-" + part2);
      var expiresAt := now + expiresInDays * MillisPerDay;
      if !ValidTime(expiresAt) {
        return ExpiryOutOfRange;
      }
      if code in invites {
        return InsertFailed;
      }
      invites := invites[code := Invite(user.value, None, None, Some(expiresAt))];
      outcome := Created(code);
    }
  }
}

=== FILE: invite_verify.dfy ===
/** `POST /api/invite-codes/verify`: a signed-in user redeems an invite code
    during registration. The code is trimmed and upper-cased before the
    lookup; an unknown code, a used code and an expired code are refused in
    that order; otherwise the code is marked used by the caller. */
module InviteVerify {
  import opened Js
  import InviteCodes

  datatype Outcome =
    | Unauthorized   // 401
    | CodeRequired   // 400
    | InvalidCode    // 404
    | AlreadyUsed    // 400
    | Expired        // 400
    | Applied        // 200

  /** `code.trim().toUpperCase()` */
  function Normalize(code: string): (key: string)
    ensures |key| == |Trim(code)|
  {
    ToUpper(Trim(code))
  }

  datatype Step = Step(invites: map<string, InviteCodes.Invite>, outcome: Outcome)

  /** The handler as a transition on the invite-codes table; `now` is the
      clock in milliseconds. */
  function RedeemStep(invites: map<string, InviteCodes.Invite>, user: Option<string>, code: Option<string>, now: int): (s: Step)
    ensures user.None? ==> s == Step(invites, Unauthorized)
    ensures user.Some? && (code.None? || Trim(code.value) == "") ==> s == Step(invites, CodeRequired)
    ensures user.Some? && code.Some? && Trim(code.value) != "" && Normalize(code.value) !in invites ==>
      s == Step(invites, InvalidCode)
    ensures s.outcome != Applied ==> s.invites == invites
    ensures s.outcome == Applied <==>
      && user.Some? && code.Some? && Trim(code.value) != ""
      && Normalize(code.value) in invites
      && !Present(invites[Normalize(code.value)].usedBy)
      && !(invites[Normalize(code.value)].expiresAt.Some? && invites[Normalize(code.value)].expiresAt.value < now)
    ensures s.outcome == Applied ==>
      var key := Normalize(code.value);
      s.invites == invites[key := invites[key].(usedBy := user, usedAt := Some(now))]
  {
    if user.None? then Step(invites, Unauthorized)
    else if code.None? || Trim(code.value) == "" then Step(invites, CodeRequired)
    else
      var key := Normalize(code.value);
      if key !in invites then Step(invites, InvalidCode)
      else
        var invite := invites[key];
        if Present(invite.usedBy) then Step(invites, AlreadyUsed)
        else if invite.expiresAt.Some? && invite.expiresAt.value < now then Step(invites, Expired)
        else Step(invites[key := invite.(usedBy := user, usedAt := Some(now))], Applied)
  }

  /** The checks come in order: a used code is reported as used even when it
      has also expired, and a code without an expiry time never expires. */
  lemma CheckOrder(invites: map<string, InviteCodes.Invite>, user: string, code: string, now: int)
    requires Trim(code) != "" && Normalize(code) in invites
    ensures var invite := invites[Normalize(code)];
      var o := RedeemStep(invites, Some(user), Some(code), now).outcome;
      && (Present(invite.usedBy) ==> o == AlreadyUsed)
      && (!Present(invite.usedBy) && invite.expiresAt.None? ==> o == Applied)
      && (!Present(invite.usedBy) && invite.expiresAt.Some? ==> (o == Expired <==> invite.expiresAt.value < now))
  {
  }

  /** Lookup ignores case: codes that agree up to ASCII case are handled
      alike. */
  lemma CaseInsensitive(invites: map<string, InviteCodes.Invite>, user: Option<string>, s: string, t: string, now: int)
    requires ToUpper(s) == ToUpper(t)
    ensures RedeemStep(invites, user, Some(s), now) == RedeemStep(invites, user, Some(t), now)
  {
    TrimUpper(s, t);
    assert |Trim(s)| == |ToUpper(Trim(s))| == |ToUpper(Trim(t))| == |Trim(t)|;
    SameKeySameStep(invites, user, s, t, now);
  }

  /** Redemption sees the typed code only through its blankness and its
      lookup key. */
  lemma SameKeySameStep(invites: map<string, InviteCodes.Invite>, user: Option<string>, s: string, t: string, now: int)
    requires (Trim(s) == "") == (Trim(t) == "")
    requires Normalize(s) == Normalize(t)
    ensures RedeemStep(invites, user, Some(s), now) == RedeemStep(invites, user, Some(t), now)
  {
  }

  /** Lookup ignores whitespace around the code. */
  lemma PaddingIgnored(invites: map<string, InviteCodes.Invite>, user: Option<string>, pre: string, s: string, post: string, now: int)
    requires forall i :: 0 <= i < |pre| ==> IsSpace(pre[i])
    requires forall i :: 0 <= i < |post| ==> IsSpace(post[i])
    ensures RedeemStep(invites, user, Some(pre + s + post), now) == RedeemStep(invites, user, Some(s), now)
  {
    TrimPadded(pre, s, post);
  }

  /** Redemption happens once: after a successful call, every later attempt
      on the same code, by anybody at any time, is refused as already used;
      and only that code's `used_by` and `used_at` changed. */
  lemma {:induction false} OnceOnly(invites: map<string, InviteCodes.Invite>, user: string, code: string, now: int,
                                    user': string, code': string, now': int)
    requires user != ""
    requires RedeemStep(invites, Some(user), Some(code), now).outcome == Applied
    requires Normalize(code') == Normalize(code)
    ensures var after := RedeemStep(invites, Some(user), Some(code), now).invites;
      && RedeemStep(after, Some(user'), Some(code'), now').outcome == AlreadyUsed
      && after.Keys == invites.Keys
      && (forall c :: c in invites && c != Normalize(code) ==> after[c] == invites[c])
      && after[Normalize(code)].creatorId == invites[Normalize(code)].creatorId
      && after[Normalize(code)].expiresAt == invites[Normalize(code)].expiresAt
  {
    assert |Trim(code')| == |Normalize(code')| == |Normalize(code)| == |Trim(code)|;
  }

  /** Trimming leaves a string alone whose ends are not whitespace. */
  lemma TrimNoop(s: string)
    requires s != [] && !IsSpace(s[0]) && !IsSpace(s[|s| - 1])
    ensures Trim(s) == s
  {
  }

  /** A generated code is its own normal form. */
  lemma {:induction false} GeneratedCodeNormal(b1: seq<InviteCodes.Byte>, b2: seq<InviteCodes.Byte>)
    requires |b1| == 4 && |b2| == 4
    ensures var code := InviteCodes.CodeOf(InviteCodes.RandomChars(b1), InviteCodes.RandomChars(b2));
      |code| == 12 && Trim(code) == code && Normalize(code) == code && ToUpper(code) == code
  {
    var code := InviteCodes.CodeOf(InviteCodes.RandomChars(b1), InviteCodes.RandomChars(b2));
    InviteCodes.GeneratedCodeShape(b1, b2);
    InviteCodes.AlphabetUpper();
    assert code[0] == 'R';
    assert code[11] in InviteCodes.Alphabet;
    TrimNoop(code);
    InviteCodes.UpperNoop(code);
  }

  /** An unused row is applied, before it expires, by any input that
      normalises to its code. */
  lemma RedeemOpenRow(invites: map<string, InviteCodes.Invite>, user: string, typed: string, key: string, now: int)
    requires Trim(typed) != "" && Normalize(typed) == key && key in invites
    requires invites[key].usedBy.None?
    requires invites[key].expiresAt.Some? && now <= invites[key].expiresAt.value
    ensures RedeemStep(invites, Some(user), Some(typed), now).outcome == Applied
  {
  }

  /** A generated code is non-blank and is its own lookup key. */
  lemma GeneratedCodeKey(b1: seq<InviteCodes.Byte>, b2: seq<InviteCodes.Byte>)
    requires |b1| == 4 && |b2| == 4
    ensures var code := InviteCodes.CodeOf(InviteCodes.RandomChars(b1), InviteCodes.RandomChars(b2));
      Normalize(code) == code && Trim(code) != ""
  {
    GeneratedCodeNormal(b1, b2);
  }

  /** After a successful generation the table holds an unused row under the
      returned code, which expires after the granted number of days. */
  lemma GeneratedRowOpen(invites: map<string, InviteCodes.Invite>, creator: string, requestedDays: Option<int>,
                         b1: seq<InviteCodes.Byte>, b2: seq<InviteCodes.Byte>, now: int)
    requires |b1| == 4 && |b2| == 4
    requires InviteCodes.GenerateStep(invites, Some(creator), requestedDays, b1, b2, now).outcome.Created?
    ensures var g := InviteCodes.GenerateStep(invites, Some(creator), requestedDays, b1, b2, now);
      var code := g.outcome.code;
      && Trim(code) != "" && Normalize(code) == code
      && code in g.invites && g.invites[code].usedBy.None?
      && g.invites[code].expiresAt == Some(now + InviteCodes.ExpiresInDays(requestedDays) * InviteCodes.MillisPerDay)
  {
    GeneratedCodeKey(b1, b2);
  }

  /** A freshly generated code, as the response returns it, can be redeemed
      by anybody until it expires. */
  lemma {:induction false} GeneratedCodeRedeemable(invites: map<string, InviteCodes.Invite>, creator: string, requestedDays: Option<int>,
                                                   b1: seq<InviteCodes.Byte>, b2: seq<InviteCodes.Byte>, now: int,
                                                   user: string, later: int)
    requires |b1| == 4 && |b2| == 4
    requires InviteCodes.GenerateStep(invites, Some(creator), requestedDays, b1, b2, now).outcome.Created?
    requires later <= now + InviteCodes.ExpiresInDays(requestedDays) * InviteCodes.MillisPerDay
    ensures var g := InviteCodes.GenerateStep(invites, Some(creator), requestedDays, b1, b2, now);
      RedeemStep(g.invites, Some(user), Some(g.outcome.code), later).outcome == Applied
  {
    var g := InviteCodes.GenerateStep(invites, Some(creator), requestedDays, b1, b2, now);
    GeneratedRowOpen(invites, creator, requestedDays, b1, b2, now);
    RedeemOpenRow(g.invites, user, g.outcome.code, g.outcome.code, later);
  }

  /** The same holds for any spelling of the code that differs from it only
      in letter case and surrounding whitespace. */
  lemma {:induction false} TypedCodeRedeemable(invites: map<string, InviteCodes.Invite>, creator: string, requestedDays: Option<int>,
                                               b1: seq<InviteCodes.Byte>, b2: seq<InviteCodes.Byte>, now: int,
                                               user: string, pre: string, typed: string, post: string, later: int)
    requires |b1| == 4 && |b2| == 4
    requires InviteCodes.GenerateStep(invites, Some(creator), requestedDays, b1, b2, now).outcome.Created?
    requires ToUpper(typed) == InviteCodes.GenerateStep(invites, Some(creator), requestedDays, b1, b2, now).outcome.code
    requires forall i :: 0 <= i < |pre| ==> IsSpace(pre[i])
    requires forall i :: 0 <= i < |post| ==> IsSpace(post[i])
    requires later <= now + InviteCodes.ExpiresInDays(requestedDays) * InviteCodes.MillisPerDay
    ensures var g := InviteCodes.GenerateStep(invites, Some(creator), requestedDays, b1, b2, now);
      RedeemStep(g.invites, Some(user), Some(pre + typed + post), later).outcome == Applied
  {
    var g := InviteCodes.GenerateStep(invites, Some(creator), requestedDays, b1, b2, now);
    GeneratedCodeRedeemable(invites, creator, requestedDays, b1, b2, now, user, later);
    GeneratedCodeNormal(b1, b2);
    CaseInsensitive(g.invites, Some(user), typed, g.outcome.code, later);
    PaddingIgnored(g.invites, Some(user), pre, typed, post, later);
  }

  /** `POST` against the shared invite-codes table. */
  method Redeem(table: InviteCodes.InviteTable, user: Option<string>, code: Option<string>, now: int) returns (outcome: Outcome)
    modifies table
    ensures Step(table.invites, outcome) == RedeemStep(old(table.invites), user, code, now)
  {
    if user.None? {
      return Unauthorized;
    }
    if code.None? || Trim(code.value) == "" {
      return CodeRequired;
    }
    var key := ToUpper(Trim(code.value));
    if key !in table.invites {
      return InvalidCode;
    }
    var invite := table.invites[key];
    if Present(invite.usedBy) {
      return AlreadyUsed;
    }
    if invite.expiresAt.Some? && invite.expiresAt.value < now {
      return Expired;
    }
    table.invites := table.invites[key := invite.(usedBy := user, usedAt := Some(now))];
    outcome := Applied;
  }
}

=== FILE: js.dfy ===
/** JavaScript-level vocabulary shared by the handlers: optional request fields,
    truthiness of strings, `String.prototype.trim`, ASCII case mapping and
    `startsWith`. */
module Js {

  datatype Option<+T> = None | Some(value: T)

  /** `!!x` for a request field that is a string, null or absent:
      only a non-empty string is truthy. */
  predicate Present(x: Option<string>) {
    x.Some? && x.value != ""
  }

  /** `x || fallback` for such a field. */
  function OrElse(x: Option<string>, fallback: string): (r: string)
    ensures Present(x) ==> r == x.value
    ensures !Present(x) ==> r == fallback
  {
    if Present(x) then x.value else fallback
  }

  /** `x || null` for such a field: falsy values collapse to null. */
  function OrNull(x: Option<string>): (r: Option<string>)
    ensures r.Some? <==> Present(x)
    ensures r.Some? ==> r == x
  {
    if Present(x) then x else None
  }

  /** ECMAScript WhiteSpace and LineTerminator code points: what `trim` removes. */
  predicate IsSpace(c: char) {
    c == ' ' || c == '\t' || c == '\n' || c == '\r' || c == '\U{000B}' || c == '\U{000C}'
    || c == '\U{00A0}' || c == '\U{1680}' || ('\U{2000}' <= c <= '\U{200A}')
    || c == '\U{2028}' || c == '\U{2029}' || c == '\U{202F}' || c == '\U{205F}'
    || c == '\U{3000}' || c == '\U{FEFF}'
  }

  function TrimStart(s: string): (r: string)
    ensures |r| <= |s| && r == s[|s| - |r|..]
    ensures r == [] || !IsSpace(r[0])
    ensures forall i :: 0 <= i < |s| - |r| ==> IsSpace(s[i])
  {
    if s != [] && IsSpace(s[0]) then TrimStart(s[1..]) else s
  }

  function TrimEnd(s: string): (r: string)
    ensures |r| <= |s| && r == s[..|r|]
    ensures r == [] || !IsSpace(r[|r| - 1])
    ensures forall i :: |r| <= i < |s| ==> IsSpace(s[i])
  {
    if s != [] && IsSpace(s[|s| - 1]) then TrimEnd(s[..|s| - 1]) else s
  }

  /** `s.trim()` */
  function Trim(s: string): (r: string)
    ensures r == [] || (!IsSpace(r[0]) && !IsSpace(r[|r| - 1]))
  {
    TrimEnd(TrimStart(s))
  }

  /** Trimming ignores whitespace added on either side. */
  lemma {:induction false} TrimPadded(pre: string, s: string, post: string)
    requires forall i :: 0 <= i < |pre| ==> IsSpace(pre[i])
    requires forall i :: 0 <= i < |post| ==> IsSpace(post[i])
    ensures Trim(pre + s + post) == Trim(s)
  {
    assert pre + s + post == pre + (s + post);
    TrimStartPadded(pre, s + post);
    if TrimStart(s) == [] {
      var t := s + post;
      assert forall i :: 0 <= i < |t| ==> IsSpace(t[i]) by {
        forall i | 0 <= i < |t| ensures IsSpace(t[i]) {
          if i < |s| { assert t[i] == s[i]; } else { assert t[i] == post[i - |s|]; }
        }
      }
    } else {
      TrimStartAppend(s, post);
      TrimEndPadded(TrimStart(s), post);
    }
  }

  lemma {:induction false} TrimStartPadded(pre: string, s: string)
    requires forall i :: 0 <= i < |pre| ==> IsSpace(pre[i])
    ensures TrimStart(pre + s) == TrimStart(s)
  {
    if pre != [] {
      assert (pre + s)[0] == pre[0];
      assert (pre + s)[1..] == pre[1..] + s;
      TrimStartPadded(pre[1..], s);
    } else {
      assert pre + s == s;
    }
  }

  lemma {:induction false} TrimEndPadded(s: string, post: string)
    requires forall i :: 0 <= i < |post| ==> IsSpace(post[i])
    ensures TrimEnd(s + post) == TrimEnd(s)
  {
    if post != [] {
      var n := |post| - 1;
      assert (s + post)[|s + post| - 1] == post[n];
      assert (s + post)[..|s + post| - 1] == s + post[..n];
      TrimEndPadded(s, post[..n]);
    } else {
      assert s + post == s;
    }
  }

  /** Trailing whitespace after a string that is not all whitespace survives
      `TrimStart`. */
  lemma {:induction false} TrimStartAppend(s: string, post: string)
    requires TrimStart(s) != []
    ensures TrimStart(s + post) == TrimStart(s) + post
  {
    assert (s + post)[0] == s[0];
    if IsSpace(s[0]) {
      assert (s + post)[1..] == s[1..] + post;
      TrimStartAppend(s[1..], post);
    }
  }

  predicate IsAsciiLower(c: char) { 'a' <= c <= 'z' }
  predicate IsAsciiUpper(c: char) { 'A' <= c <= 'Z' }

  function UpperChar(c: char): (r: char)
    ensures !IsAsciiLower(r)
    ensures !IsAsciiLower(c) ==> r == c
  {
    if IsAsciiLower(c) then (c as int - 32) as char else c
  }

  function LowerChar(c: char): (r: char)
    ensures !IsAsciiUpper(r)
    ensures !IsAsciiUpper(c) ==> r == c
  {
    if IsAsciiUpper(c) then (c as int + 32) as char else c
  }

  /** `s.toUpperCase()` restricted to ASCII letters. */
  function ToUpper(s: string): (r: string)
    ensures |r| == |s|
    ensures forall i :: 0 <= i < |s| ==> r[i] == UpperChar(s[i])
  {
    seq(|s|, i requires 0 <= i < |s| => UpperChar(s[i]))
  }

  /** `s.toLowerCase()` restricted to ASCII letters. */
  function ToLower(s: string): (r: string)
    ensures |r| == |s|
    ensures forall i :: 0 <= i < |s| ==> r[i] == LowerChar(s[i])
  {
    seq(|s|, i requires 0 <= i < |s| => LowerChar(s[i]))
  }

  /** Upper-casing forgets the case the string was typed in. */
  lemma UpperOfLower(s: string)
    ensures ToUpper(ToLower(s)) == ToUpper(s)
  {
    assert forall i :: 0 <= i < |s| ==> UpperChar(LowerChar(s[i])) == UpperChar(s[i]);
  }

  /** Characters that agree up to ASCII case are both whitespace or both
      not. */
  lemma SameUpperSameSpace(c: char, d: char)
    requires UpperChar(c) == UpperChar(d)
    ensures IsSpace(c) <==> IsSpace(d)
  {
  }

  predicate SpacesAligned(s: string, t: string) {
    |s| == |t| && forall i :: 0 <= i < |s| ==> (IsSpace(s[i]) <==> IsSpace(t[i]))
  }

  lemma {:induction false} TrimStartAligned(s: string, t: string)
    requires SpacesAligned(s, t)
    ensures |TrimStart(s)| == |TrimStart(t)|
  {
    if s != [] && IsSpace(s[0]) {
      TrimStartAligned(s[1..], t[1..]);
    }
  }

  lemma {:induction false} TrimEndAligned(s: string, t: string)
    requires SpacesAligned(s, t)
    ensures |TrimEnd(s)| == |TrimEnd(t)|
  {
    if s != [] && IsSpace(s[|s| - 1]) {
      TrimEndAligned(s[..|s| - 1], t[..|t| - 1]);
    }
  }

  /** Strings equal up to ASCII case have their whitespace in the same
      places. */
  lemma AlignedOfUpper(s: string, t: string)
    requires ToUpper(s) == ToUpper(t)
    ensures SpacesAligned(s, t)
  {
    forall i | 0 <= i < |s| ensures IsSpace(s[i]) <==> IsSpace(t[i]) {
      assert ToUpper(s)[i] == ToUpper(t)[i];
      SameUpperSameSpace(s[i], t[i]);
    }
  }

  /** Equality up to case carries over to slices. */
  lemma UpperSlice(s: string, t: string, a: nat, b: nat)
    requires ToUpper(s) == ToUpper(t) && a <= b <= |s|
    ensures ToUpper(s[a..b]) == ToUpper(t[a..b])
  {
    forall i | 0 <= i < b - a ensures ToUpper(s[a..b])[i] == ToUpper(t[a..b])[i] {
      assert ToUpper(s)[a + i] == ToUpper(t)[a + i];
    }
  }

  /** `Trim` is a slice of its input. */
  lemma TrimIsSlice(s: string)
    ensures var a := |s| - |TrimStart(s)|;
      a + |Trim(s)| <= |s| && Trim(s) == s[a..a + |Trim(s)|]
  {
    var s1 := TrimStart(s);
    var r := TrimEnd(s1);
    SliceOfSuffix(s, |s| - |s1|, |r|);
  }

  lemma SliceOfSuffix(s: string, a: nat, n: nat)
    requires a + n <= |s|
    ensures s[a..][..n] == s[a..a + n]
  {
  }

  /** Strings aligned in whitespace trim to the same positions. */
  lemma {:induction false} TrimAligned(s: string, t: string)
    requires SpacesAligned(s, t)
    ensures |TrimStart(s)| == |TrimStart(t)| && |Trim(s)| == |Trim(t)|
  {
    TrimStartAligned(s, t);
    var a := |s| - |TrimStart(s)|;
    var s1, t1 := TrimStart(s), TrimStart(t);
    assert s1 == s[a..] && t1 == t[a..];
    assert SpacesAligned(s1, t1) by {
      forall i | 0 <= i < |s1| ensures IsSpace(s1[i]) <==> IsSpace(t1[i]) {
        assert s1[i] == s[a + i] && t1[i] == t[a + i];
      }
    }
    TrimEndAligned(s1, t1);
  }

  /** Trimming and then upper-casing ignores the case the string was typed
      in: strings equal up to ASCII case stay equal up to case once trimmed. */
  lemma {:induction false} TrimUpper(s: string, t: string)
    requires ToUpper(s) == ToUpper(t)
    ensures ToUpper(Trim(s)) == ToUpper(Trim(t))
  {
    AlignedOfUpper(s, t);
    TrimAligned(s, t);
    TrimIsSlice(s);
    TrimIsSlice(t);
    var a := |s| - |TrimStart(s)|;
    UpperSlice(s, t, a, a + |Trim(s)|);
  }

  /** `s.startsWith(prefix)` */
  predicate StartsWith(s: string, prefix: string) {
    |prefix| <= |s| && s[..|prefix|] == prefix
  }
}

=== FILE: mobile_nav.dfy ===
/** The mobile bottom navigation: five fixed items, and the rule that
    highlights the item for the current path. */
module MobileNav {
  import opened Js

  const Items: seq<string> := ["/", "/search", "/submit", "/notifications", "/profile"]

  /** `item.href === "/" ? pathname === "/" : pathname.startsWith(item.href)` */
  predicate IsActive(href: string, pathname: string) {
    if href == "/" then pathname == "/" else StartsWith(pathname, href)
  }

  /** Two prefixes of one string: the shorter is a prefix of the longer. */
  lemma PrefixesNest(p: string, a: string, b: string)
    requires StartsWith(p, a) && StartsWith(p, b) && |a| <= |b|
    ensures StartsWith(b, a)
  {
    assert b[..|a|] == p[..|b|][..|a|];
  }

  /** No item's href is a prefix of another's, except `/`, which is only
      matched exactly. */
  lemma ItemsPrefixFree()
    ensures forall i, j :: 1 <= i < |Items| && 1 <= j < |Items| && i != j ==> !StartsWith(Items[j], Items[i])
  {
    forall i, j | 1 <= i < |Items| && 1 <= j < |Items| && i != j ensures !StartsWith(Items[j], Items[i]) {
      if |Items[i]| <= |Items[j]| {
        assert Items[j][..|Items[i]|] != Items[i] by {
          assert Items[j][1] != Items[i][1] || Items[j][2] != Items[i][2] || Items[j][3] != Items[i][3];
        }
      }
    }
  }

  /** At most one item is highlighted, whatever the path. */
  lemma {:induction false} AtMostOneActive(pathname: string, i: nat, j: nat)
    requires i < |Items| && j < |Items|
    requires IsActive(Items[i], pathname) && IsActive(Items[j], pathname)
    ensures i == j
  {
    if i != j && i != 0 && j != 0 {
      ItemsPrefixFree();
      if |Items[i]| <= |Items[j]| {
        PrefixesNest(pathname, Items[i], Items[j]);
      } else {
        PrefixesNest(pathname, Items[j], Items[i]);
      }
    }
  }

  /** Home is highlighted only on the home page itself. */
  lemma HomeExact(pathname: string)
    ensures IsActive("/", pathname) <==> pathname == "/"
  {
  }

  /** The prefix test ignores path segments: a page under `/submitted`
      highlights the `/submit` item, and a page under `/submit/` does too. */
  lemma PrefixNotSegmentAware()
    ensures IsActive("/submit", "/submitted")
    ensures IsActive("/submit", "/submit/new")
    ensures !IsActive("/submit", "/")
  {
    assert "/submitted"[..7] == "/submit";
    assert "/submit/new"[..7] == "/submit";
  }
}

=== FILE: notifications_read.dfy ===
/** `PATCH /api/notifications/read`: a signed-in user marks notifications as
    read, either the ones whose ids the body lists or, when the body has no
    `ids` array, all of their unread ones. The notifications table maps a
    notification id to its row. */
module NotificationsRead {
  import opened Js

  datatype Notification = Notification(userId: string, isRead: bool, kind: string, title: string, link: Option<string>)

  datatype Outcome = Unauthorized | Success   // 401, 200 { success: true }

  /** Whether the update touches notification `id` of the caller: with an
      `ids` array, the ids it lists (an empty array selects nothing); without
      one (`ids` absent or not an array), every unread notification. */
  predicate Selected(n: Notification, id: string, user: string, ids: Option<seq<string>>) {
    n.userId == user && (if ids.Some? then id in ids.value else !n.isRead)
  }

  /** The table after the update. */
  function MarkRead(rows: map<string, Notification>, user: string, ids: Option<seq<string>>): (after: map<string, Notification>)
    ensures after.Keys == rows.Keys
  {
    map id | id in rows :: if Selected(rows[id], id, user, ids) then rows[id].(isRead := true) else rows[id]
  }

  datatype Step = Step(rows: map<string, Notification>, outcome: Outcome)

  /** The handler as a transition; `user` is `None` when nobody is signed in. */
  function PatchStep(rows: map<string, Notification>, user: Option<string>, ids: Option<seq<string>>): (s: Step)
    ensures user.None? <==> s.outcome == Unauthorized
    ensures user.None? ==> s.rows == rows
  {
    if user.None? then Step(rows, Unauthorized) else Step(MarkRead(rows, user.value, ids), Success)
  }

  /** With an `ids` array, a notification is read afterwards exactly when it
      was already read or it is the caller's and listed. */
  lemma ListedBecomeRead(rows: map<string, Notification>, user: string, ids: seq<string>, id: string)
    requires id in rows
    ensures MarkRead(rows, user, Some(ids))[id].isRead <==> rows[id].isRead || (rows[id].userId == user && id in ids)
  {
  }

  /** Without one, every notification of the caller is read afterwards, and
      another user's is read exactly when it was before. */
  lemma AllOfCallerBecomeRead(rows: map<string, Notification>, user: string, id: string)
    requires id in rows
    ensures MarkRead(rows, user, None)[id].isRead <==> rows[id].isRead || rows[id].userId == user
  {
  }

  /** Nothing but `is_read` changes, and it only goes from unread to read;
      other users' notifications do not change at all. */
  lemma OnlyIsReadChanges(rows: map<string, Notification>, user: string, ids: Option<seq<string>>, id: string)
    requires id in rows
    ensures var after := MarkRead(rows, user, ids);
      && after[id] == rows[id].(isRead := after[id].isRead)
      && (rows[id].isRead ==> after[id].isRead)
      && (rows[id].userId != user ==> after[id] == rows[id])
  {
  }

  /** Repeating the request changes nothing more. */
  lemma Idempotent(rows: map<string, Notification>, user: Option<string>, ids: Option<seq<string>>)
    ensures var once := PatchStep(rows, user, ids).rows;
      PatchStep(once, user, ids) == PatchStep(rows, user, ids)
  {
    if user.Some? {
      var once := MarkRead(rows, user.value, ids);
      var twice := MarkRead(once, user.value, ids);
      forall id | id in rows ensures twice[id] == once[id] {
        assert once[id].isRead <==> rows[id].isRead || Selected(rows[id], id, user.value, ids);
      }
    }
  }

  /** The notifications table. */
  class NotificationTable {
    var rows: map<string, Notification>

    constructor (initial: map<string, Notification>)
      ensures rows == initial
    {
      rows := initial;
    }

    /** `PATCH`: a bulk update of `is_read`; it reports success whenever the
        caller is signed in. */
    method Patch(user: Option<string>, ids: Option<seq<string>>) returns (outcome: Outcome)
      modifies this
      ensures Step(rows, outcome) == PatchStep(old(rows), user, ids)
    {
      if user.None? {
        return Unauthorized;
      }
      if ids.Some? {
        rows := map id | id in rows :: if rows[id].userId == user.value && id in ids.value
                                       then rows[id].(isRead := true) else rows[id];
      } else {
        rows := map id | id in rows :: if rows[id].userId == user.value && !rows[id].isRead
                                       then rows[id].(isRead := true) else rows[id];
      }
      outcome := Success;
    }
  }
}

=== FILE: paging.dfy ===
/** The offset pagination shared by the list handlers: page `page` of size
    `limit` asks the database for the inclusive row range
    `[(page - 1) * limit, (page - 1) * limit + limit - 1]`. */
module Paging {

  /** `(page - 1) * limit` */
  function Offset(page: int, limit: int): (offset: int)
    ensures page == 1 ==> offset == 0
    ensures limit >= 0 && page >= 1 ==> offset >= 0
  {
    (page - 1) * limit
  }

  /** The last row index that `range(offset, offset + limit - 1)` asks for. */
  function Last(page: int, limit: int): (last: int)
    ensures last - Offset(page, limit) + 1 == limit
  {
    Offset(page, limit) + limit - 1
  }

  /** Whether row index `i` lies in the window of page `page`. */
  predicate InWindow(i: int, page: int, limit: int) {
    Offset(page, limit) <= i <= Last(page, limit)
  }

  /** The next page's window starts right after this one ends. */
  lemma NextPageAdjacent(page: int, limit: int)
    ensures Offset(page + 1, limit) == Last(page, limit) + 1
  {
  }

  /** With a positive page size the windows of pages 1, 2, ... tile the rows:
      row `i` is on page `i / limit + 1` and on no other page. */
  lemma {:induction false} PagesTile(i: nat, limit: int, page: int)
    requires limit >= 1 && page >= 1
    ensures InWindow(i, page, limit) <==> page == i / limit + 1
  {
    var q, r := i / limit, i % limit;
    assert i == q * limit + r && 0 <= r < limit;
    if page - 1 < q {
      MulMonotone(page, q, limit);
      assert Last(page, limit) == page * limit - 1;
    } else if page - 1 > q {
      MulMonotone(q + 1, page - 1, limit);
      assert Offset(page, limit) == (page - 1) * limit;
    } else {
      assert Offset(page, limit) == q * limit;
    }
  }

  lemma MulMonotone(a: int, b: int, c: int)
    requires a <= b && c >= 0
    ensures a * c <= b * c
  {
  }
}

=== FILE: papers_route.dfy ===
/** `/api/papers`: `POST` lets a signed-in user submit a paper to a venue;
    `GET` lists papers of a venue or status, sorted by one of three columns,
    one page at a time. The papers table is a sequence whose index is the
    new row's id; the activity log is a sequence of entries. */
module PapersRoute {
  import opened Js
  import Paging

  datatype PaperStatus = Submitted | UnderReview | Published | RejectedTooGood
  datatype Decision = CertifiedRubbish | Recyclable | TooGood

  /** The fields of a `POST` body the handler reads; `None` is an absent or
      null field. */
  datatype PaperRequest = PaperRequest(
    title: Option<string>, abstractText: Option<string>, keywords: Option<seq<string>>,
    contentType: Option<string>, contentMarkdown: Option<string>, pdfUrl: Option<string>,
    imageUrls: Option<seq<string>>, supplementaryUrls: Option<seq<string>>,
    venueId: Option<string>, reviewMode: Option<string>)

  /** A row of the papers table as the handler inserts it; `decisionAt` is a
      time in milliseconds. */
  datatype Paper = Paper(
    title: string, abstractText: Option<string>, keywords: Option<seq<string>>,
    contentType: string, contentMarkdown: Option<string>, pdfUrl: Option<string>,
    imageUrls: seq<string>, supplementaryUrls: Option<seq<string>>,
    venueId: string, reviewMode: Option<string>, authorId: string,
    status: PaperStatus, decision: Option<Decision>, decisionAt: Option<int>)

  /** A row of the activity log. */
  datatype Activity = Activity(venueId: string, userId: string, action: string, targetType: string,
                               targetId: nat, paperTitle: string)

  datatype Outcome =
    | Unauthorized        // 401
    | MissingFields       // 400
    | InsertFailed        // 500
    | Created(id: nat)    // 201 { data }

  function Status(o: Outcome): (code: int)
    ensures 200 <= code < 300 <==> o.Created?
  {
    match o
    case Unauthorized => 401
    case MissingFields => 400
    case InsertFailed => 500
    case Created(_) => 201
  }

  /** `!title || !content_type || !venue_id` fails. */
  predicate HasRequiredFields(req: PaperRequest) {
    Present(req.title) && Present(req.contentType) && Present(req.venueId)
  }

  datatype Bootstrap = Bootstrap(status: PaperStatus, decision: Option<Decision>)

  /** The status and decision a new paper starts with: an instant-review
      venue publishes it at once as certified rubbish, any other mode leaves
      it submitted and undecided. */
  function Initial(reviewMode: Option<string>): (b: Bootstrap)
    ensures b.status == Published <==> reviewMode == Some("instant")
    ensures b.status != Published ==> b.status == Submitted
    ensures b.decision.Some? <==> b.status == Published
    ensures b.decision.Some? ==> b.decision.value == CertifiedRubbish
  {
    if reviewMode == Some("instant") then Bootstrap(Published, Some(CertifiedRubbish))
    else Bootstrap(Submitted, None)
  }

  /** The inserted row. */
  function NewPaper(author: string, req: PaperRequest, now: int): Paper
    requires HasRequiredFields(req)
  {
    var b := Initial(req.reviewMode);
    Paper(req.title.value, req.abstractText, req.keywords, req.contentType.value, req.contentMarkdown,
          OrNull(req.pdfUrl), if req.imageUrls.Some? then req.imageUrls.value else [],
          req.supplementaryUrls, req.venueId.value, req.reviewMode, author,
          b.status, b.decision, if b.decision.Some? then Some(now) else None)
  }

  datatype Step = Step(papers: seq<Paper>, log: seq<Activity>, outcome: Outcome)

  /** `POST` as a transition on the papers table and the activity log.
      `insertFails` is a database error on the insert; `logFails` one on the
      best-effort activity-log write; `now` is the clock. */
  function SubmitStep(papers: seq<Paper>, log: seq<Activity>, user: Option<string>, req: PaperRequest,
                      now: int, insertFails: bool, logFails: bool): (s: Step)
    ensures user.None? ==> s == Step(papers, log, Unauthorized)
    ensures user.Some? && !HasRequiredFields(req) ==> s == Step(papers, log, MissingFields)
    ensures s.outcome.Created? <==> user.Some? && HasRequiredFields(req) && !insertFails
    ensures user.Some? && HasRequiredFields(req) && insertFails ==> s == Step(papers, log, InsertFailed)
    ensures !s.outcome.Created? ==> s.papers == papers && s.log == log
    ensures s.outcome.Created? ==>
      && s.outcome.id == |papers|
      && |s.papers| == |papers| + 1 && s.papers[..|papers|] == papers
      && s.papers[|papers|].authorId == user.value
      && s.papers[|papers|].title == req.title.value
      && s.papers[|papers|].venueId == req.venueId.value
      && (s.log == log || s.log == log + [Activity(req.venueId.value, user.value, "submission", "paper",
                                                   |papers|, req.title.value)])
  {
    if user.None? then Step(papers, log, Unauthorized)
    else if !HasRequiredFields(req) then Step(papers, log, MissingFields)
    else if insertFails then Step(papers, log, InsertFailed)
    else
      var id := |papers|;
      var entry := Activity(req.venueId.value, user.value, "submission", "paper", id, req.title.value);
      Step(papers + [NewPaper(user.value, req, now)], if logFails then log else log + [entry], Created(id))
  }

  /** A created paper's status, decision and decision time agree: it has a
      decision exactly when it is published, and a decision time exactly when
      it has a decision. */
  lemma {:induction false} CreatedPaperConsistent(papers: seq<Paper>, log: seq<Activity>, user: Option<string>,
                                                  req: PaperRequest, now: int, insertFails: bool, logFails: bool)
    ensures var s := SubmitStep(papers, log, user, req, now, insertFails, logFails);
      s.outcome.Created? ==>
        var p := s.papers[s.outcome.id];
        && (p.decisionAt.Some? <==> p.decision.Some?)
        && (p.decision.Some? <==> p.status == Published)
        && (p.status == Published <==> req.reviewMode == Some("instant"))
        && (p.decisionAt.Some? ==> p.decisionAt.value == now)
  {
    var s := SubmitStep(papers, log, user, req, now, insertFails, logFails);
    if s.outcome.Created? {
      assert s.papers[s.outcome.id] == NewPaper(user.value, req, now);
    }
  }

  /** Optional fields: a falsy `pdf_url` is stored as null, a missing
      `image_urls` as the empty list; everything else is stored as sent. */
  lemma {:induction false} CreatedPaperDefaults(papers: seq<Paper>, log: seq<Activity>, user: string,
                                                req: PaperRequest, now: int, logFails: bool)
    requires HasRequiredFields(req)
    ensures var p := SubmitStep(papers, log, Some(user), req, now, false, logFails).papers[|papers|];
      && (p.pdfUrl.Some? <==> Present(req.pdfUrl))
      && (p.pdfUrl.Some? ==> p.pdfUrl == req.pdfUrl)
      && (req.imageUrls.None? ==> p.imageUrls == [])
      && (req.imageUrls.Some? ==> p.imageUrls == req.imageUrls.value)
      && p.supplementaryUrls == req.supplementaryUrls
      && p.abstractText == req.abstractText && p.keywords == req.keywords
      && p.contentType == req.contentType.value && p.reviewMode == req.reviewMode
      && p.contentMarkdown == req.contentMarkdown
  {
    assert SubmitStep(papers, log, Some(user), req, now, false, logFails).papers[|papers|] == NewPaper(user, req, now);
  }

  /** The activity-log write is best effort: whether it fails changes
      neither the response nor the papers table, only the log. */
  lemma {:induction false} ActivityLogBestEffort(papers: seq<Paper>, log: seq<Activity>, user: Option<string>,
                                                 req: PaperRequest, now: int, insertFails: bool)
    ensures var a := SubmitStep(papers, log, user, req, now, insertFails, false);
      var b := SubmitStep(papers, log, user, req, now, insertFails, true);
      a.outcome == b.outcome && a.papers == b.papers && b.log == log
      && (a.outcome.Created? ==> |a.log| == |log| + 1 && a.log[..|log|] == log)
  {
    var a := SubmitStep(papers, log, user, req, now, insertFails, false);
    if a.outcome.Created? {
      assert a.log[..|log|] == log;
    }
  }

  /** The papers table and the activity log. */
  class PaperStore {
    var papers: seq<Paper>
    var log: seq<Activity>

    constructor ()
      ensures papers == [] && log == []
    {
      papers := [];
      log := [];
    }

    /** `POST`: guards, insert, then the activity-log write whose failure is
        ignored. */
    method Submit(user: Option<string>, req: PaperRequest, now: int, insertFails: bool, logFails: bool)
      returns (outcome: Outcome)
      modifies this
      ensures Step(papers, log, outcome) == SubmitStep(old(papers), old(log), user, req, now, insertFails, logFails)
    {
      if user.None? {
        return Unauthorized;
      }
      if !Present(req.title) || !Present(req.contentType) || !Present(req.venueId) {
        return MissingFields;
      }
      var b := Initial(req.reviewMode);
      var decisionAt := if b.decision.Some? then Some(now) else None;
      if insertFails {
        return InsertFailed;
      }
      var id := |papers|;
      papers := papers + [Paper(req.title.value, req.abstractText, req.keywords, req.contentType.value,
                                req.contentMarkdown, OrNull(req.pdfUrl),
                                if req.imageUrls.Some? then req.imageUrls.value else [],
                                req.supplementaryUrls, req.venueId.value, req.reviewMode, user.value,
                                b.status, b.decision, decisionAt)];
      if !logFails {
        log := log + [Activity(req.venueId.value, user.value, "submission", "paper", id, req.title.value)];
      }
      outcome := Created(id);
    }
  }

  /** The column `GET` sorts by, always descending. */
  datatype Column = CreatedAt | AvgRubbishScore | HotScore

  /** The query `GET` sends: equality filters, sort column and row range. */
  datatype Query = Query(venue: Option<string>, status: Option<string>, order: Column, first: int, last: int)

  /** `GET`: build the query from the search parameters. `page` and `limit`
      are the parsed integers, `None` when the parameter is absent or
      empty. Returns the query with the page and limit echoed in the
      response. */
  method PlanList(venue: Option<string>, sort: Option<string>, status: Option<string>,
                  pageParam: Option<int>, limitParam: Option<int>)
    returns (q: Query, page: int, limit: int)
    ensures page == (if pageParam.Some? then pageParam.value else 1)
    ensures limit == (if limitParam.Some? then limitParam.value else 20)
    ensures q.venue == OrNull(venue) && q.status == OrNull(status)
    ensures q.order == CreatedAt <==> sort == Some("latest")
    ensures q.order == AvgRubbishScore <==> sort == Some("top")
    ensures q.order == HotScore <==> sort != Some("latest") && sort != Some("top")
    ensures q.first == Paging.Offset(page, limit) && q.last - q.first + 1 == limit
    ensures forall i :: q.first <= i <= q.last <==> Paging.InWindow(i, page, limit)
  {
    var sortKey := OrElse(sort, "hot");
    page := if pageParam.Some? then pageParam.value else 1;
    limit := if limitParam.Some? then limitParam.value else 20;
    var offset := (page - 1) * limit;
    q := Query(None, None, HotScore, 0, 0);
    if Present(venue) {
      q := q.(venue := venue);
    }
    if Present(status) {
      q := q.(status := status);
    }
    if sortKey == "latest" {
      q := q.(order := CreatedAt);
    } else if sortKey == "top" {
      q := q.(order := AvgRubbishScore);
    } else {
      q := q.(order := HotScore);
    }
    q := q.(first := offset, last := offset + limit - 1);
  }
}

=== FILE: react_route.dfy ===
/** `POST /api/react`: a signed-in user toggles an emoji reaction on a target.
    The reactions table is a set of (user, target type, target id, emoji)
    keys: a present key is deleted, an absent one inserted. */
module ReactRoute {
  import opened Js

  datatype ReactionKey = ReactionKey(userId: string, targetType: string, targetId: string, emoji: string)

  datatype ReactRequest = ReactRequest(targetType: Option<string>, targetId: Option<string>, emoji: Option<string>)

  datatype Outcome =
    | Unauthorized            // 401
    | MissingParameters       // 400
    | Reacted(reacted: bool)  // 200 { reacted: false } or 201 { reacted: true }

  function Status(o: Outcome): (code: int)
    ensures code == 201 <==> o == Reacted(true)
  {
    match o
    case Unauthorized => 401
    case MissingParameters => 400
    case Reacted(r) => if r then 201 else 200
  }

  predicate ValidRequest(req: ReactRequest) {
    Present(req.targetType) && Present(req.targetId) && Present(req.emoji)
  }

  function KeyOf(user: string, req: ReactRequest): ReactionKey
    requires ValidRequest(req)
  {
    ReactionKey(user, req.targetType.value, req.targetId.value, req.emoji.value)
  }

  datatype Step = Step(reactions: set<ReactionKey>, outcome: Outcome)

  /** The handler as a transition on the reactions table. */
  function React(reactions: set<ReactionKey>, user: Option<string>, req: ReactRequest): (s: Step)
    ensures user.None? ==> s == Step(reactions, Unauthorized)
    ensures user.Some? && !ValidRequest(req) ==> s == Step(reactions, MissingParameters)
    ensures user.Some? && ValidRequest(req) ==>
      var k := KeyOf(user.value, req);
      s.outcome == Reacted(k !in reactions)
      && s.reactions == if k in reactions then reactions - {k} else reactions + {k}
  {
    if user.None? then Step(reactions, Unauthorized)
    else if !ValidRequest(req) then Step(reactions, MissingParameters)
    else
      var k := KeyOf(user.value, req);
      if k in reactions then Step(reactions - {k}, Reacted(false))
      else Step(reactions + {k}, Reacted(true))
  }

  /** The `reacted` flag in the response says whether the key is in the
      table after the call. */
  lemma FlagIsMembership(reactions: set<ReactionKey>, user: string, req: ReactRequest)
    requires ValidRequest(req)
    ensures var s := React(reactions, Some(user), req);
      s.outcome.Reacted? && (s.outcome.reacted <==> KeyOf(user, req) in s.reactions)
  {
  }

  /** Reacting twice with the same request restores the table. */
  lemma {:induction false} ReactTwiceRestores(reactions: set<ReactionKey>, user: Option<string>, req: ReactRequest)
    ensures React(React(reactions, user, req).reactions, user, req).reactions == reactions
  {
    if user.Some? && ValidRequest(req) {
      var k := KeyOf(user.value, req);
      if k in reactions {
        assert (reactions - {k}) + {k} == reactions;
      } else {
        assert (reactions + {k}) - {k} == reactions;
      }
    }
  }

  /** Reactions under any other key (another emoji, target or user) are
      untouched; a rejected request touches nothing. */
  lemma OthersUntouched(reactions: set<ReactionKey>, user: Option<string>, req: ReactRequest, other: ReactionKey)
    requires !(user.Some? && ValidRequest(req) && other == KeyOf(user.value, req))
    ensures other in React(reactions, user, req).reactions <==> other in reactions
  {
  }

  /** The reactions table. */
  class ReactionTable {
    var reactions: set<ReactionKey>

    constructor ()
      ensures reactions == {}
    {
      reactions := {};
    }

    /** `POST`: look the key up, then delete it or insert it. */
    method Post(user: Option<string>, req: ReactRequest) returns (outcome: Outcome)
      modifies this
      ensures Step(reactions, outcome) == React(old(reactions), user, req)
    {
      if user.None? {
        return Unauthorized;
      }
      if !Present(req.targetType) || !Present(req.targetId) || !Present(req.emoji) {
        return MissingParameters;
      }
      var key := ReactionKey(user.value, req.targetType.value, req.targetId.value, req.emoji.value);
      if key in reactions {
        reactions := reactions - {key};
        return Reacted(false);
      }
      reactions := reactions + {key};
      outcome := Reacted(true);
    }
  }
}

=== FILE: reply_tree.dfy ===
/** `buildTree` of the comment thread view: a flat list of comments with
    `parent_id` pointers becomes a forest. Every comment gets a node (keyed by
    its id) with an empty reply list; then, in input order, a comment whose
    parent id names a node is appended to that node's replies and every other
    comment becomes a root. A node is referred to by its id, which is how the
    source's `Map` shares one node object between its parent's `replies` and
    later lookups. */
module ReplyTree {
  import opened Js

  datatype Comment = Comment(id: string, parentId: Option<string>, userId: string, content: string)

  function Ids(cs: seq<Comment>): (ids: set<string>)
    ensures forall i :: 0 <= i < |cs| ==> cs[i].id in ids
  {
    set i | 0 <= i < |cs| :: cs[i].id
  }

  predicate UniqueIds(cs: seq<Comment>) {
    forall i, j :: 0 <= i < j < |cs| ==> cs[i].id != cs[j].id
  }

  /** Where `buildTree` puts a comment, given the ids present: `Some(p)` for
      the replies of node `p` (`c.parent_id && map.has(c.parent_id)`), `None`
      for the roots. */
  function Placement(c: Comment, ids: set<string>): (place: Option<string>)
    ensures place.Some? <==> Present(c.parentId) && c.parentId.value in ids
    ensures place.Some? ==> place == c.parentId
  {
    if Present(c.parentId) && c.parentId.value in ids then c.parentId else None
  }

  /** The ids of the comments among the first `n` that `buildTree` puts at
      `place`, in input order: what the list at `place` holds after `n`
      steps of the second pass. */
  function ListAt(cs: seq<Comment>, ids: set<string>, place: Option<string>, n: nat): (l: seq<string>)
    requires n <= |cs|
    ensures |l| <= n
  {
    if n == 0 then []
    else ListAt(cs, ids, place, n - 1) + (if Placement(cs[n - 1], ids) == place then [cs[n - 1].id] else [])
  }

  /** The roots `buildTree` returns. */
  function Roots(cs: seq<Comment>): seq<string> {
    ListAt(cs, Ids(cs), None, |cs|)
  }

  /** The replies of node `p` once `buildTree` is done. */
  function Replies(cs: seq<Comment>, p: string): seq<string> {
    ListAt(cs, Ids(cs), Some(p), |cs|)
  }

  /** No comment among the first `n` after position `j` has the same id: the
      copy of that id the node map holds once `n` comments are in. */
  predicate LastWithIdBefore(cs: seq<Comment>, j: nat, n: nat) {
    j < n <= |cs| && forall m :: j < m < n ==> cs[m].id != cs[j].id
  }

  lemma IdsStep(cs: seq<Comment>, i: nat)
    requires i < |cs|
    ensures (set j | 0 <= j < i + 1 :: cs[j].id) == (set j | 0 <= j < i :: cs[j].id) + {cs[i].id}
  {
    var before, after := (set j | 0 <= j < i :: cs[j].id), (set j | 0 <= j < i + 1 :: cs[j].id);
    forall x | x in after ensures x in before || x == cs[i].id {
      var j :| 0 <= j < i + 1 && cs[j].id == x;
      if j < i { assert x in before; }
    }
  }

  /** `buildTree`. `nodes` is the id-to-node map (each node a copy of its
      comment), `replies` the reply list of each node, `roots` the result. */
  method BuildTree(comments: seq<Comment>)
    returns (nodes: map<string, Comment>, replies: map<string, seq<string>>, roots: seq<string>)
    ensures nodes.Keys == Ids(comments) && replies.Keys == nodes.Keys
    ensures forall j: nat :: LastWithIdBefore(comments, j, |comments|) ==> nodes[comments[j].id] == comments[j]
    ensures roots == Roots(comments)
    ensures forall p :: p in replies ==> replies[p] == Replies(comments, p)
  {
    var blank;
    nodes, blank := IndexNodes(comments);
    replies, roots := AttachReplies(comments, nodes, blank);
  }

  /** Writing comment i into a map that holds the last copy of every id
      among the first i comments makes it hold the last copy among the first
      i + 1. */
  lemma LastWriterStep(cs: seq<Comment>, prev: map<string, Comment>, i: nat)
    requires i < |cs|
    requires forall j: nat :: LastWithIdBefore(cs, j, i) ==> cs[j].id in prev && prev[cs[j].id] == cs[j]
    ensures forall j: nat :: LastWithIdBefore(cs, j, i + 1) ==>
      cs[j].id in prev[cs[i].id := cs[i]] && prev[cs[i].id := cs[i]][cs[j].id] == cs[j]
  {
    forall j: nat | LastWithIdBefore(cs, j, i + 1)
      ensures cs[j].id in prev[cs[i].id := cs[i]] && prev[cs[i].id := cs[i]][cs[j].id] == cs[j]
    {
      if j < i {
        assert LastWithIdBefore(cs, j, i);
      }
    }
  }

  /** The first pass of `buildTree`: a node with no replies for every id; a
      repeated id keeps the last comment that carries it. */
  method IndexNodes(comments: seq<Comment>) returns (nodes: map<string, Comment>, replies: map<string, seq<string>>)
    ensures nodes.Keys == Ids(comments) && replies.Keys == nodes.Keys
    ensures forall j: nat :: LastWithIdBefore(comments, j, |comments|) ==> nodes[comments[j].id] == comments[j]
    ensures forall p :: p in replies ==> replies[p] == []
  {
    nodes, replies := map[], map[];
    for i := 0 to |comments|
      invariant nodes.Keys == (set j | 0 <= j < i :: comments[j].id) && replies.Keys == nodes.Keys
      invariant forall j: nat :: LastWithIdBefore(comments, j, i) ==> comments[j].id in nodes && nodes[comments[j].id] == comments[j]
      invariant forall p :: p in replies ==> replies[p] == []
    {
      LastWriterStep(comments, nodes, i);
      IdsStep(comments, i);
      nodes := nodes[comments[i].id := comments[i]];
      replies := replies[comments[i].id := []];
    }
  }

  /** The second pass of `buildTree`: in input order, each comment goes to
      the replies of its parent's node when that node exists, else to the
      roots. */
  method AttachReplies(comments: seq<Comment>, nodes: map<string, Comment>, empty: map<string, seq<string>>)
    returns (replies: map<string, seq<string>>, roots: seq<string>)
    requires nodes.Keys == Ids(comments) && empty.Keys == nodes.Keys
    requires forall p :: p in empty ==> empty[p] == []
    ensures replies.Keys == nodes.Keys
    ensures roots == Roots(comments)
    ensures forall p :: p in replies ==> replies[p] == Replies(comments, p)
  {
    ghost var ids := nodes.Keys;
    replies, roots := empty, [];
    RepliesAtStart(comments, ids, empty);
    for i := 0 to |comments|
      invariant roots == ListAt(comments, ids, None, i)
      invariant replies == RepliesAt(comments, ids, i)
    {
      var c := comments[i];
      RepliesAtStep(comments, ids, i);
      if Present(c.parentId) && c.parentId.value in nodes {
        var p := c.parentId.value;
        replies := replies[p := replies[p] + [c.id]];
      } else {
        roots := roots + [c.id];
      }
    }
  }

  /** The replies lists after `n` steps of the second pass, one per node. */
  ghost function RepliesAt(cs: seq<Comment>, ids: set<string>, n: nat): (r: map<string, seq<string>>)
    requires n <= |cs|
    ensures r.Keys == ids
  {
    map p | p in ids :: ListAt(cs, ids, Some(p), n)
  }

  /** Before the second pass every node has an empty replies list. */
  lemma RepliesAtStart(cs: seq<Comment>, ids: set<string>, empty: map<string, seq<string>>)
    requires empty.Keys == ids && forall p :: p in empty ==> empty[p] == []
    ensures empty == RepliesAt(cs, ids, 0)
  {
  }

  /** One step of the second pass on the replies lists: only the list of the
      comment's parent, when that parent is a node, grows, by the comment. */
  lemma RepliesAtStep(cs: seq<Comment>, ids: set<string>, n: nat)
    requires n < |cs|
    ensures Placement(cs[n], ids).None? ==> RepliesAt(cs, ids, n + 1) == RepliesAt(cs, ids, n)
    ensures Placement(cs[n], ids).Some? ==>
      var q := cs[n].parentId.value;
      RepliesAt(cs, ids, n + 1) == RepliesAt(cs, ids, n)[q := RepliesAt(cs, ids, n)[q] + [cs[n].id]]
  {
    var before, after := RepliesAt(cs, ids, n), RepliesAt(cs, ids, n + 1);
    if Placement(cs[n], ids).Some? {
      var q := cs[n].parentId.value;
      var grown := before[q := before[q] + [cs[n].id]];
      assert after.Keys == grown.Keys;
      forall p | p in ids ensures after[p] == grown[p] {
        if p == q { assert after[p] == before[p] + [cs[n].id]; }
        else { assert after[p] == before[p] + []; }
      }
    } else {
      forall p | p in ids ensures after[p] == before[p] {
        assert after[p] == before[p] + [];
      }
    }
  }

  predicate NoRepeats(s: seq<string>) {
    forall k, m :: 0 <= k < m < |s| ==> s[k] != s[m]
  }

  /** With unique ids, the list at `place` names a comment exactly when the
      comment is placed there, and names none twice. */
  lemma {:induction false} ListedExactlyOnce(cs: seq<Comment>, ids: set<string>, place: Option<string>, n: nat)
    requires UniqueIds(cs) && n <= |cs|
    ensures forall i :: 0 <= i < |cs| ==>
      (cs[i].id in ListAt(cs, ids, place, n) <==> i < n && Placement(cs[i], ids) == place)
    ensures NoRepeats(ListAt(cs, ids, place, n))
  {
    if n > 0 {
      ListedExactlyOnce(cs, ids, place, n - 1);
      var before := ListAt(cs, ids, place, n - 1);
      var x := cs[n - 1].id;
      if Placement(cs[n - 1], ids) == place {
        var l := before + [x];
        assert ListAt(cs, ids, place, n) == l;
        forall i | 0 <= i < |cs| ensures cs[i].id in l <==> i < n && Placement(cs[i], ids) == place {
          if i != n - 1 {
            assert cs[i].id != x by {
              if i < n - 1 { assert cs[i].id != cs[n - 1].id; } else { assert cs[n - 1].id != cs[i].id; }
            }
          }
        }
        assert x !in before;
        assert NoRepeats(l) by {
        forall k, m | 0 <= k < m < |l| ensures l[k] != l[m] {
          if m < |before| { assert l[k] == before[k] && l[m] == before[m]; }
          else { assert l[k] == before[k] && before[k] in before && l[m] == x; }
        }
        }
      } else {
        assert ListAt(cs, ids, place, n) == before;
        forall i | 0 <= i < |cs| ensures cs[i].id in before <==> i < n && Placement(cs[i], ids) == place {
          if i == n - 1 { assert cs[i] == cs[n - 1]; }
        }
      }
    }
  }

  /** The list at `place` keeps input order: of two comments placed there,
      the earlier one is listed first. */
  lemma {:induction false} ListedInOrder(cs: seq<Comment>, ids: set<string>, place: Option<string>, n: nat, i: nat, j: nat)
    requires n <= |cs| && i < j < n
    requires Placement(cs[i], ids) == place && Placement(cs[j], ids) == place
    ensures exists k, m :: (0 <= k < m < |ListAt(cs, ids, place, n)|
      && ListAt(cs, ids, place, n)[k] == cs[i].id && ListAt(cs, ids, place, n)[m] == cs[j].id)
  {
    var before := ListAt(cs, ids, place, n - 1);
    var l := ListAt(cs, ids, place, n);
    assert l == before + (if Placement(cs[n - 1], ids) == place then [cs[n - 1].id] else []);
    if j < n - 1 {
      ListedInOrder(cs, ids, place, n - 1, i, j);
      var k, m :| 0 <= k < m < |before| && before[k] == cs[i].id && before[m] == cs[j].id;
      assert l[k] == before[k] && l[m] == before[m];
    } else {
      ListedAt(cs, ids, place, n - 1, i);
      var k :| 0 <= k < |before| && before[k] == cs[i].id;
      assert l[k] == before[k] && l[|before|] == cs[j].id;
    }
  }

  /** A comment among the first `n` placed at `place` is in the list there. */
  lemma {:induction false} ListedAt(cs: seq<Comment>, ids: set<string>, place: Option<string>, n: nat, i: nat)
    requires n <= |cs| && i < n && Placement(cs[i], ids) == place
    ensures cs[i].id in ListAt(cs, ids, place, n)
  {
    var before := ListAt(cs, ids, place, n - 1);
    assert ListAt(cs, ids, place, n) == before + (if Placement(cs[n - 1], ids) == place then [cs[n - 1].id] else []);
    if i < n - 1 {
      ListedAt(cs, ids, place, n - 1, i);
    }
  }

  /** With unique ids the roots and the reply lists partition the input: the
      roots hold exactly the comments without a present parent and node `p`'s
      replies exactly the comments whose parent is `p`, none twice. */
  lemma Partition(cs: seq<Comment>, i: nat)
    requires UniqueIds(cs) && i < |cs|
    ensures cs[i].id in Roots(cs) <==> Placement(cs[i], Ids(cs)).None?
    ensures forall p :: cs[i].id in Replies(cs, p) <==> Placement(cs[i], Ids(cs)) == Some(p)
    ensures NoRepeats(Roots(cs))
    ensures forall p :: NoRepeats(Replies(cs, p))
  {
    ListedExactlyOnce(cs, Ids(cs), None, |cs|);
    forall p ensures (cs[i].id in Replies(cs, p) <==> Placement(cs[i], Ids(cs)) == Some(p)) && NoRepeats(Replies(cs, p)) {
      ListedExactlyOnce(cs, Ids(cs), Some(p), |cs|);
    }
  }

  // ----- Reachability in the built forest -----

  /** The position of the comment with id `id`. */
  function IndexOf(cs: seq<Comment>, id: string): (j: nat)
    requires id in Ids(cs)
    ensures j < |cs| && cs[j].id == id
  {
    if cs[0].id == id then 0
    else
      assert id in Ids(cs[1..]) by {
        var k :| 0 <= k < |cs| && cs[k].id == id;
        assert cs[1..][k - 1] == cs[k];
      }
      1 + IndexOf(cs[1..], id)
  }

  /** The position of the node a comment is appended to, if any. */
  function Parent(cs: seq<Comment>, i: nat): (r: Option<nat>)
    requires i < |cs|
    ensures r.Some? ==> r.value < |cs|
  {
    match Placement(cs[i], Ids(cs))
    case None => None
    case Some(p) => Some(IndexOf(cs, p))
  }

  predicate IsRoot(cs: seq<Comment>, r: nat) {
    r < |cs| && Placement(cs[r], Ids(cs)).None?
  }

  /** The k-th ancestor of comment i, if the parent chain is that long. */
  function Up(cs: seq<Comment>, i: nat, k: nat): (r: Option<nat>)
    requires i < |cs|
    ensures r.Some? ==> r.value < |cs|
    decreases k
  {
    if k == 0 then Some(i)
    else match Parent(cs, i)
      case None => None
      case Some(j) => Up(cs, j, k - 1)
  }

  /** Comment c is a reply of node j: by Partition, c occurs (once) in the
      reply list of j exactly when this holds. */
  predicate Edge(cs: seq<Comment>, j: nat, c: nat)
    requires j < |cs| && c < |cs|
  {
    Placement(cs[c], Ids(cs)) == Some(cs[j].id)
  }

  /** Comment i lies k reply-steps below node r in the built forest. */
  ghost predicate Reaches(cs: seq<Comment>, r: nat, i: nat, k: nat)
    decreases k
  {
    if k == 0 then r == i && i < |cs|
    else i < |cs| && exists j :: 0 <= j < |cs| && Edge(cs, j, i) && Reaches(cs, r, j, k - 1)
  }

  /** With unique ids, the forest's edges are the parent pointers. */
  lemma EdgeIsParent(cs: seq<Comment>, j: nat, c: nat)
    requires UniqueIds(cs) && j < |cs| && c < |cs|
    ensures Edge(cs, j, c) <==> Parent(cs, c) == Some(j)
  {
    var ids := Ids(cs);
    if Edge(cs, j, c) {
      assert Placement(cs[c], ids) == Some(cs[j].id);
      assert IndexOf(cs, cs[j].id) == j;
    }
    if Parent(cs, c) == Some(j) {
      assert Placement(cs[c], ids) == Some(cs[j].id);
    }
  }

  /** Going down k edges from r reaches i exactly when going up k parent
      steps from i reaches r. */
  lemma {:induction false} ReachesIsUp(cs: seq<Comment>, r: nat, i: nat, k: nat)
    requires UniqueIds(cs) && i < |cs|
    ensures Reaches(cs, r, i, k) <==> Up(cs, i, k) == Some(r)
    decreases k
  {
    if k > 0 {
      if Reaches(cs, r, i, k) {
        var j :| 0 <= j < |cs| && Edge(cs, j, i) && Reaches(cs, r, j, k - 1);
        EdgeIsParent(cs, j, i);
        ReachesIsUp(cs, r, j, k - 1);
      }
      if Up(cs, i, k) == Some(r) {
        var j := Parent(cs, i).value;
        EdgeIsParent(cs, j, i);
        ReachesIsUp(cs, r, j, k - 1);
      }
    }
  }

  /** Going up a + b steps is going up a steps, then b more. */
  lemma {:induction false} UpAdd(cs: seq<Comment>, i: nat, a: nat, b: nat)
    requires i < |cs|
    ensures Up(cs, i, a + b) == if Up(cs, i, a).None? then None else Up(cs, Up(cs, i, a).value, b)
    decreases a
  {
    if a > 0 && Parent(cs, i).Some? {
      UpAdd(cs, Parent(cs, i).value, a - 1, b);
    }
  }

  /** Above a root there is nothing. */
  lemma RootHasNoAncestor(cs: seq<Comment>, r: nat, b: nat)
    requires IsRoot(cs, r) && b > 0
    ensures Up(cs, r, b).None?
  {
  }

  /** Going round a cycle any number of times comes back to the start. */
  lemma {:induction false} CycleRepeats(cs: seq<Comment>, i: nat, n: nat, t: nat)
    requires i < |cs| && Up(cs, i, n) == Some(i)
    ensures Up(cs, i, t * n) == Some(i)
  {
    if t > 0 {
      CycleRepeats(cs, i, n, t - 1);
      assert t * n == (t - 1) * n + n;
      UpAdd(cs, i, (t - 1) * n, n);
    }
  }

  /** A comment whose parent chain ends at a root is reachable from that root,
      and from no other root. */
  lemma ReachableFromExactlyOneRoot(cs: seq<Comment>, i: nat, k: nat, r: nat)
    requires UniqueIds(cs) && i < |cs|
    requires Up(cs, i, k) == Some(r) && IsRoot(cs, r)
    ensures Reaches(cs, r, i, k)
    ensures forall r': nat, k': nat :: IsRoot(cs, r') && Reaches(cs, r', i, k') ==> r' == r && k' == k
  {
    ReachesIsUp(cs, r, i, k);
    forall r': nat, k': nat | IsRoot(cs, r') && Reaches(cs, r', i, k') ensures r' == r && k' == k {
      ReachesIsUp(cs, r', i, k');
      if k <= k' {
        OneRootAbove(cs, i, k, k', r, r');
      } else {
        OneRootAbove(cs, i, k', k, r', r);
      }
    }
  }

  /** Two root ancestors of one comment are the same root at the same height. */
  lemma OneRootAbove(cs: seq<Comment>, i: nat, a: nat, b: nat, r: nat, r': nat)
    requires i < |cs| && a <= b
    requires Up(cs, i, a) == Some(r) && IsRoot(cs, r)
    requires Up(cs, i, b) == Some(r') && IsRoot(cs, r')
    ensures a == b && r == r'
  {
    if a < b {
      var d: nat := b - a;
      RootHasNoAncestor(cs, r, d);
      UpAdd(cs, i, a, d);
    }
  }

  /** A comment on a parent cycle (its own ancestor) hangs below no root: it
      never shows up in the rendered thread. */
  lemma CycleUnreachable(cs: seq<Comment>, i: nat, n: nat)
    requires UniqueIds(cs) && i < |cs| && n > 0 && Up(cs, i, n) == Some(i)
    ensures forall r, k :: IsRoot(cs, r) ==> !Reaches(cs, r, i, k)
  {
    forall r: nat, k: nat | IsRoot(cs, r) && Reaches(cs, r, i, k) ensures false {
      ReachesIsUp(cs, r, i, k);
      var m := (k + 1) * n;
      CycleRepeats(cs, i, n, k + 1);
      assert m >= k + 1;
      var d: nat := m - k;
      RootHasNoAncestor(cs, r, d);
      UpAdd(cs, i, k, d);
    }
  }

  /** In particular, a comment that names itself as parent is unreachable. */
  lemma SelfParentUnreachable(cs: seq<Comment>, i: nat)
    requires UniqueIds(cs) && i < |cs| && cs[i].parentId == Some(cs[i].id) && cs[i].id != ""
    ensures forall r, k :: IsRoot(cs, r) ==> !Reaches(cs, r, i, k)
  {
    assert IndexOf(cs, cs[i].id) == i;
    assert Up(cs, i, 1) == Some(i);
    CycleUnreachable(cs, i, 1);
  }

  /** No comment is its own ancestor. */
  ghost predicate Acyclic(cs: seq<Comment>) {
    forall i: nat, n: nat :: i < |cs| && n > 0 ==> Up(cs, i, n) != Some(i)
  }

  /** Where the parent chain breaks off within m steps, its last comment is
      a root. */
  lemma {:induction false} RootWithin(cs: seq<Comment>, i: nat, m: nat)
    requires i < |cs| && Up(cs, i, m).None?
    ensures exists k: nat, r: nat :: k < m && Up(cs, i, k) == Some(r) && IsRoot(cs, r)
    decreases m
  {
    match Parent(cs, i)
    case None =>
      assert Up(cs, i, 0) == Some(i) && IsRoot(cs, i);
    case Some(j) =>
      RootWithin(cs, j, m - 1);
      var k: nat, r: nat :| k < m - 1 && Up(cs, j, k) == Some(r) && IsRoot(cs, r);
      assert Up(cs, i, k + 1) == Some(r);
  }

  /** n + 1 values below n repeat one of them. */
  lemma {:induction false} Pigeonhole(s: seq<nat>, n: nat)
    requires n >= 1 && |s| > n && forall k :: 0 <= k < |s| ==> s[k] < n
    ensures exists a, b :: 0 <= a < b < |s| && s[a] == s[b]
    decreases n
  {
    if n == 1 {
      assert s[0] == 0 == s[1];
    } else if p :| 0 <= p < |s| && s[p] == n - 1 {
      if q :| 0 <= q < |s| && q != p && s[q] == n - 1 {
        if p < q {
          assert s[p] == s[q];
        } else {
          assert s[q] == s[p];
        }
      } else {
        var t := s[..p] + s[p + 1..];
        forall k | 0 <= k < |t| ensures t[k] < n - 1 {
          if k < p {
            assert t[k] == s[k];
          } else {
            assert t[k] == s[k + 1];
          }
        }
        Pigeonhole(t, n - 1);
        var a, b :| 0 <= a < b < |t| && t[a] == t[b];
        var a' := if a < p then a else a + 1;
        var b' := if b < p then b else b + 1;
        assert s[a'] == t[a] && s[b'] == t[b];
      }
    } else {
      var t := s[..|s| - 1];
      assert forall k :: 0 <= k < |t| ==> t[k] == s[k];
      Pigeonhole(t, n - 1);
      var a, b :| 0 <= a < b < |t| && t[a] == t[b];
      assert s[a] == s[b];
    }
  }

  /** Without parent cycles every comment hangs below a root, fewer than
      |comments| reply-steps down; with ReachableFromExactlyOneRoot, below
      exactly one. */
  lemma {:induction false} AcyclicChainEndsAtRoot(cs: seq<Comment>, i: nat)
    requires UniqueIds(cs) && Acyclic(cs) && i < |cs|
    ensures exists k: nat, r: nat :: k < |cs| && IsRoot(cs, r) && Reaches(cs, r, i, k)
  {
    if forall k: nat :: k <= |cs| ==> Up(cs, i, k).Some? {
      var s := seq(|cs| + 1, k requires 0 <= k <= |cs| => Up(cs, i, k).value);
      Pigeonhole(s, |cs|);
      var a, b :| 0 <= a < b < |s| && s[a] == s[b];
      UpAdd(cs, i, a, b - a);
      assert false;
    }
    var m: nat :| m <= |cs| && Up(cs, i, m).None?;
    RootWithin(cs, i, m);
    var k: nat, r: nat :| k < m && Up(cs, i, k) == Some(r) && IsRoot(cs, r);
    ReachesIsUp(cs, r, i, k);
  }
}

=== FILE: reports_route.dfy ===
/** `/api/reports`: a signed-in user reports a paper, comment, review or
    profile (`POST`); content and system administrators list reports by
    status (`GET`). The reports table is a sequence in insertion order whose
    index is the report's id. */
module ReportsRoute {
  import opened Js

  /** A row of the reports table. New rows get the column default
      `"pending"`; administrators later move them to other statuses. */
  datatype Report = Report(reporterId: string, targetType: string, targetId: string, reason: string,
                           description: Option<string>, status: string)

  const Pending := "pending"
  const ListCap := 50

  /** The body fields of a `POST`. */
  datatype ReportRequest = ReportRequest(targetType: Option<string>, targetId: Option<string>,
                                         reason: Option<string>, description: Option<string>)

  predicate HasRequiredFields(req: ReportRequest) {
    Present(req.targetType) && Present(req.targetId) && Present(req.reason)
  }

  predicate ValidTargetType(t: string) {
    t in {"paper", "comment", "review", "profile"}
  }

  /** Whether `r` is a pending report by `reporter` on the given target: the
      rows the duplicate lookup selects. */
  predicate PendingOn(r: Report, reporter: string, targetType: string, targetId: string) {
    r.reporterId == reporter && r.targetType == targetType && r.targetId == targetId && r.status == Pending
  }

  /** How many of the first `n` rows the duplicate lookup selects. */
  function PendingCount(reports: seq<Report>, reporter: string, targetType: string, targetId: string, n: nat): (c: nat)
    requires n <= |reports|
    ensures c <= n
    ensures c == 0 <==> forall i :: 0 <= i < n ==> !PendingOn(reports[i], reporter, targetType, targetId)
  {
    if n == 0 then 0
    else PendingCount(reports, reporter, targetType, targetId, n - 1)
         + (if PendingOn(reports[n - 1], reporter, targetType, targetId) then 1 else 0)
  }

  function Pendings(reports: seq<Report>, reporter: string, targetType: string, targetId: string): nat {
    PendingCount(reports, reporter, targetType, targetId, |reports|)
  }

  datatype Outcome =
    | Unauthorized      // 401
    | MissingFields     // 400
    | InvalidTargetType // 400
    | AlreadyReported   // 400
    | Created(id: nat)  // 201 { data }

  datatype Step = Step(reports: seq<Report>, outcome: Outcome)

  /** `POST` as a transition on the reports table. The duplicate lookup ends
      in `.single()`, which yields a row only when exactly one row matches. */
  function ReportStep(reports: seq<Report>, user: Option<string>, req: ReportRequest): (s: Step)
    ensures user.None? ==> s == Step(reports, Unauthorized)
    ensures user.Some? && !HasRequiredFields(req) ==> s == Step(reports, MissingFields)
    ensures user.Some? && HasRequiredFields(req) && !ValidTargetType(req.targetType.value) ==> s == Step(reports, InvalidTargetType)
    ensures s.outcome == AlreadyReported <==>
      user.Some? && HasRequiredFields(req) && ValidTargetType(req.targetType.value)
      && Pendings(reports, user.value, req.targetType.value, req.targetId.value) == 1
    ensures !s.outcome.Created? ==> s.reports == reports
    ensures s.outcome.Created? ==>
      && s.outcome.id == |reports|
      && s.reports == reports + [Report(user.value, req.targetType.value, req.targetId.value, req.reason.value,
                                        OrNull(req.description), Pending)]
  {
    if user.None? then Step(reports, Unauthorized)
    else if !HasRequiredFields(req) then Step(reports, MissingFields)
    else if !ValidTargetType(req.targetType.value) then Step(reports, InvalidTargetType)
    else if Pendings(reports, user.value, req.targetType.value, req.targetId.value) == 1 then Step(reports, AlreadyReported)
    else
      var row := Report(user.value, req.targetType.value, req.targetId.value, req.reason.value, OrNull(req.description), Pending);
      Step(reports + [row], Created(|reports|))
  }

  /** Every reporter has at most one pending report per target. */
  ghost predicate AtMostOnePending(reports: seq<Report>) {
    forall reporter, targetType, targetId :: Pendings(reports, reporter, targetType, targetId) <= 1
  }

  lemma {:induction false} CountAppend(reports: seq<Report>, r: Report, reporter: string, targetType: string, targetId: string)
    ensures Pendings(reports + [r], reporter, targetType, targetId)
         == Pendings(reports, reporter, targetType, targetId) + (if PendingOn(r, reporter, targetType, targetId) then 1 else 0)
  {
    CountPrefix(reports, [r], reporter, targetType, targetId, |reports|);
  }

  lemma {:induction false} CountPrefix(reports: seq<Report>, more: seq<Report>, reporter: string, targetType: string, targetId: string, n: nat)
    requires n <= |reports|
    ensures PendingCount(reports + more, reporter, targetType, targetId, n) == PendingCount(reports, reporter, targetType, targetId, n)
  {
    if n > 0 {
      CountPrefix(reports, more, reporter, targetType, targetId, n - 1);
      assert (reports + more)[n - 1] == reports[n - 1];
    }
  }

  /** The duplicate guard keeps the invariant: a sequence of `POST`s never
      leaves two pending reports by one reporter on one target. */
  lemma {:induction false} OnePendingKept(reports: seq<Report>, user: Option<string>, req: ReportRequest)
    requires AtMostOnePending(reports)
    ensures AtMostOnePending(ReportStep(reports, user, req).reports)
  {
    var s := ReportStep(reports, user, req);
    if s.outcome.Created? {
      var row := s.reports[|reports|];
      forall reporter, targetType, targetId
        ensures Pendings(s.reports, reporter, targetType, targetId) <= 1
      {
        CountAppend(reports, row, reporter, targetType, targetId);
        assert s.reports == reports + [row];
      }
    }
  }

  /** Reports that are no longer pending do not block a new one: a valid
      report is refused only while a pending one exists. */
  lemma ReReportAfterResolution(reports: seq<Report>, user: string, req: ReportRequest)
    requires HasRequiredFields(req) && ValidTargetType(req.targetType.value)
    requires forall i :: 0 <= i < |reports| ==> !PendingOn(reports[i], user, req.targetType.value, req.targetId.value)
    ensures ReportStep(reports, Some(user), req).outcome == Created(|reports|)
  {
  }

  /** The reports table. */
  class ReportTable {
    var reports: seq<Report>

    constructor ()
      ensures reports == []
    {
      reports := [];
    }

    /** `POST`: guards, duplicate lookup, insert. */
    method Post(user: Option<string>, req: ReportRequest) returns (outcome: Outcome)
      modifies this
      ensures Step(reports, outcome) == ReportStep(old(reports), user, req)
    {
      if user.None? {
        return Unauthorized;
      }
      if !Present(req.targetType) || !Present(req.targetId) || !Present(req.reason) {
        return MissingFields;
      }
      if req.targetType.value !in ["paper", "comment", "review", "profile"] {
        return InvalidTargetType;
      }
      var existing := Pendings(reports, user.value, req.targetType.value, req.targetId.value) == 1;
      if existing {
        return AlreadyReported;
      }
      var id := |reports|;
      reports := reports + [Report(user.value, req.targetType.value, req.targetId.value, req.reason.value,
                                   OrNull(req.description), Pending)];
      outcome := Created(id);
    }
  }

  /** The ids of the first `n` reports with status `status`, newest first. */
  function NewestFirst(reports: seq<Report>, status: string, n: nat): (ids: seq<nat>)
    requires n <= |reports|
    ensures |ids| <= n
    ensures forall k :: 0 <= k < |ids| ==> ids[k] < n && reports[ids[k]].status == status
    ensures forall k, l :: 0 <= k < l < |ids| ==> ids[k] > ids[l]
  {
    if n == 0 then []
    else (if reports[n - 1].status == status then [n - 1] else []) + NewestFirst(reports, status, n - 1)
  }

  /** Every report with the status is listed. */
  lemma {:induction false} NewestFirstComplete(reports: seq<Report>, status: string, n: nat, i: nat)
    requires i < n <= |reports| && reports[i].status == status
    ensures i in NewestFirst(reports, status, n)
  {
    if i < n - 1 {
      NewestFirstComplete(reports, status, n - 1, i);
    }
  }

  datatype ListOutcome = ListUnauthorized | ListForbidden | Listed(ids: seq<nat>)   // 401, 403, 200

  /** `GET`: only content and system administrators may list; the status
      filter defaults to `"pending"`, and at most fifty reports come back,
      newest first. `role` is the caller's profile role, `None` without a
      profile row. */
  function ListStep(reports: seq<Report>, user: Option<string>, role: Option<string>, status: Option<string>): (o: ListOutcome)
    ensures user.None? ==> o == ListUnauthorized
    ensures o.Listed? <==> user.Some? && role.Some? && role.value in {"content_admin", "system_admin"}
    ensures o.Listed? ==>
      && |o.ids| <= ListCap
      && (forall k :: 0 <= k < |o.ids| ==> o.ids[k] < |reports| && reports[o.ids[k]].status == OrElse(status, Pending))
      && (forall k, l :: 0 <= k < l < |o.ids| ==> o.ids[k] > o.ids[l])
    ensures o.Listed? ==>
      forall i :: (0 <= i < |reports| && reports[i].status == OrElse(status, Pending)
                   && (|o.ids| < ListCap || i > o.ids[|o.ids| - 1])) ==> i in o.ids
  {
    if user.None? then ListUnauthorized
    else if role.None? || role.value !in {"content_admin", "system_admin"} then ListForbidden
    else
      NewestPageComplete(reports, OrElse(status, Pending));
      Listed(NewestPage(reports, OrElse(status, Pending)))
  }

  /** The first page of `NewestFirst`: at most fifty ids. */
  function NewestPage(reports: seq<Report>, status: string): seq<nat> {
    var all := NewestFirst(reports, status, |reports|);
    if |all| <= ListCap then all else all[..ListCap]
  }

  /** The page leaves out no report with the status that is newer than its
      last entry, and none at all when it is not full. */
  lemma NewestPageComplete(reports: seq<Report>, status: string)
    ensures var ids := NewestPage(reports, status);
      forall i :: (0 <= i < |reports| && reports[i].status == status
                   && (|ids| < ListCap || i > ids[|ids| - 1])) ==> i in ids
  {
    var all := NewestFirst(reports, status, |reports|);
    forall i | 0 <= i < |reports| && reports[i].status == status
      ensures |all| <= ListCap || i > all[ListCap - 1] ==> i in NewestPage(reports, status)
    {
      NewestFirstComplete(reports, status, |reports|, i);
      if |all| > ListCap && i > all[ListCap - 1] {
        DecreasingPrefix(all, ListCap, i);
      }
    }
  }

  /** In a strictly decreasing sequence, a member above the entry at
      position `c - 1` sits among the first `c`. */
  lemma DecreasingPrefix(all: seq<nat>, c: nat, i: nat)
    requires 0 < c < |all| && forall k, l :: 0 <= k < l < |all| ==> all[k] > all[l]
    requires i in all && i > all[c - 1]
    ensures i in all[..c]
  {
    var p :| 0 <= p < |all| && all[p] == i;
    assert forall l :: c <= l < |all| ==> all[l] < all[c - 1];
    assert all[..c][p] == i;
  }

  /** When fewer than fifty reports have the status, all of them are listed;
      with no status given those are the pending ones. */
  lemma {:induction false} ListAllWhenFew(reports: seq<Report>, user: string, role: string, status: Option<string>, i: nat)
    requires role in {"content_admin", "system_admin"}
    requires |NewestFirst(reports, OrElse(status, Pending), |reports|)| <= ListCap
    requires i < |reports| && reports[i].status == OrElse(status, Pending)
    ensures i in ListStep(reports, Some(user), Some(role), status).ids
  {
    NewestFirstComplete(reports, OrElse(status, Pending), |reports|, i);
  }
}

=== FILE: upload.dfy ===
/** `POST /api/upload`: a signed-in user uploads a file of at most 50 MiB to
    the papers bucket, under `{user id}/{category}/{timestamp}_{safe name}`.
    The storage call itself is a parameter (whether it fails); the clock is
    the `now` parameter in milliseconds. */
module Upload {
  import opened Js

  const MaxFileSize: nat := 50 * 1024 * 1024

  /** The part of the multipart `file` field the handler uses. */
  datatype File = File(name: string, size: nat, contentType: string)

  /** `[a-zA-Z0-9._-]` */
  predicate SafeChar(c: char) {
    ('a' <= c <= 'z') || ('A' <= c <= 'Z') || ('0' <= c <= '9') || c == '.' || c == '_' || c == '-'
  }

  /** `name.replace(/[^a-zA-Z0-9._-]/g, "_")` */
  function SafeName(name: string): (safe: string)
    ensures |safe| == |name|
    ensures forall i :: 0 <= i < |name| ==> SafeChar(safe[i])
    ensures forall i :: 0 <= i < |name| ==> safe[i] == if SafeChar(name[i]) then name[i] else '_'
  {
    seq(|name|, i requires 0 <= i < |name| => if SafeChar(name[i]) then name[i] else '_')
  }

  /** Sanitising is idempotent, leaves a name made of allowed characters
      alone, and never yields a path separator. */
  lemma SafeNameProperties(name: string)
    ensures SafeName(SafeName(name)) == SafeName(name)
    ensures (forall i :: 0 <= i < |name| ==> SafeChar(name[i])) ==> SafeName(name) == name
    ensures '/' !in SafeName(name)
  {
  }

  /** The decimal digits of `n`, as `${n}` prints a non-negative integer. */
  function Decimal(n: nat): (s: string)
    ensures |s| > 0
    ensures forall i :: 0 <= i < |s| ==> '0' <= s[i] <= '9'
  {
    if n < 10 then [('0' as int + n) as char] else Decimal(n / 10) + [('0' as int + n % 10) as char]
  }

  /** The number a string of decimal digits denotes. */
  function DecimalValue(s: string): nat
    requires forall i :: 0 <= i < |s| ==> '0' <= s[i] <= '9'
  {
    if s == [] then 0 else DecimalValue(s[..|s| - 1]) * 10 + (s[|s| - 1] as int - '0' as int)
  }

  /** The timestamp in the path can be read back. */
  lemma {:induction false} DecimalRoundTrip(n: nat)
    ensures DecimalValue(Decimal(n)) == n
  {
    if n >= 10 {
      var s := Decimal(n);
      assert s[..|s| - 1] == Decimal(n / 10);
      DecimalRoundTrip(n / 10);
    }
  }

  /** `` `${user.id}/${category}/${timestamp}_${safeName}` `` */
  function StoragePath(userId: string, category: string, now: nat, fileName: string): (path: string)
    ensures var last := Decimal(now) + "_" + SafeName(fileName);
      && path == userId + "/" + category + "/" + last
      && '/' !in last
  {
    userId + "/" + category + "/" + Decimal(now) + "_" + SafeName(fileName)
  }

  datatype Outcome =
    | Unauthorized                                                  // 401
    | NoFile                                                        // 400
    | TooLarge                                                      // 400
    | StorageFailed                                                 // 500
    | Uploaded(path: string, fileName: string, size: nat, contentType: string)  // 200

  /** The handler: `category` is the form field, `storageFails` whether the
      storage upload reports an error. */
  function UploadStep(user: Option<string>, file: Option<File>, category: Option<string>, now: nat, storageFails: bool): (o: Outcome)
    ensures user.None? ==> o == Unauthorized
    ensures user.Some? && file.None? ==> o == NoFile
    ensures user.Some? && file.Some? ==> (o == TooLarge <==> file.value.size > MaxFileSize)
    ensures o.Uploaded? <==> user.Some? && file.Some? && file.value.size <= MaxFileSize && !storageFails
    ensures user.Some? && file.Some? && file.value.size <= MaxFileSize && storageFails ==> o == StorageFailed
    ensures o.Uploaded? ==>
      && o.path == StoragePath(user.value, OrElse(category, "paper"), now, file.value.name)
      && o.fileName == file.value.name && o.size == file.value.size && o.contentType == file.value.contentType
  {
    if user.None? then Unauthorized
    else
      var cat := OrElse(category, "paper");
      if file.None? then NoFile
      else if file.value.size > MaxFileSize then TooLarge
      else if storageFails then StorageFailed
      else Uploaded(StoragePath(user.value, cat, now, file.value.name), file.value.name, file.value.size, file.value.contentType)
  }

  /** The limit is inclusive: a file of exactly 50 MiB is accepted and one
      byte more is refused. */
  lemma SizeLimitInclusive(user: string, name: string, contentType: string, category: Option<string>, now: nat)
    ensures UploadStep(Some(user), Some(File(name, 52428800, contentType)), category, now, false).Uploaded?
    ensures UploadStep(Some(user), Some(File(name, 52428801, contentType)), category, now, false) == TooLarge
  {
  }

  /** Without a category the file goes into the `paper` folder, and the
      path's last segment is the timestamp and sanitised name. */
  lemma DefaultCategory(user: string, file: File, now: nat)
    requires file.size <= MaxFileSize
    ensures var o := UploadStep(Some(user), Some(file), None, now, false);
      o.Uploaded? && o.path == user + "/paper/" + Decimal(now) + "_" + SafeName(file.name)
  {
  }
}

=== FILE: venue_applications.dfy ===
/** `/api/venue-applications`: a signed-in user applies for a new venue
    (`POST`), and lists applications (`GET`): administrators see all of them,
    anybody else only their own. Existing venues are represented by the set
    of their slugs; applications by a sequence in insertion order whose
    index is the application's id. */
module VenueApplications {
  import opened Js

  /** The optional text fields of an application, as sent or stored. */
  datatype Details = Details(subtitle: Option<string>, description: Option<string>, website: Option<string>,
                             contact: Option<string>, deadline: Option<string>, submissionOpen: Option<string>,
                             date: Option<string>, location: Option<string>)

  datatype ApplicationRequest = ApplicationRequest(name: Option<string>, slug: Option<string>,
                                                   reviewMode: Option<string>, details: Details)

  /** A row of the venue-applications table. */
  datatype Application = Application(applicantId: string, name: string, slug: string, reviewMode: string, details: Details)

  /** `/^[a-z0-9-]+$/`: one or more lower-case ASCII letters, digits and
      hyphens, and nothing else. */
  predicate SlugChar(c: char) {
    ('a' <= c <= 'z') || ('0' <= c <= '9') || c == '-'
  }

  predicate ValidSlug(s: string) {
    |s| > 0 && forall i :: 0 <= i < |s| ==> SlugChar(s[i])
  }

  /** A valid slug is already lower case, so a slug with an upper-case letter
      is refused rather than folded. */
  lemma {:induction false} SlugIsLowerCase(s: string)
    ensures ValidSlug(s) ==> ToLower(s) == s
    ensures (exists i :: 0 <= i < |s| && IsAsciiUpper(s[i])) ==> !ValidSlug(s)
  {
    if ValidSlug(s) {
      assert forall i :: 0 <= i < |s| ==> !IsAsciiUpper(s[i]);
    }
  }

  /** Falsy optional fields are stored as null. */
  function NullDefaults(d: Details): (r: Details)
    ensures r.subtitle == OrNull(d.subtitle) && r.description == OrNull(d.description)
    ensures r.website == OrNull(d.website) && r.contact == OrNull(d.contact)
    ensures r.deadline == OrNull(d.deadline) && r.submissionOpen == OrNull(d.submissionOpen)
    ensures r.date == OrNull(d.date) && r.location == OrNull(d.location)
  {
    Details(OrNull(d.subtitle), OrNull(d.description), OrNull(d.website), OrNull(d.contact),
            OrNull(d.deadline), OrNull(d.submissionOpen), OrNull(d.date), OrNull(d.location))
  }

  /** Applying the defaults twice is applying them once. */
  lemma NullDefaultsIdempotent(d: Details)
    ensures NullDefaults(NullDefaults(d)) == NullDefaults(d)
  {
  }

  datatype Outcome =
    | Unauthorized       // 401
    | MissingFields      // 400 "Name and slug are required"
    | InvalidSlug        // 400
    | SlugTaken          // 400 "A venue with this slug already exists"
    | Created(id: nat)   // 201 { data }

  datatype Step = Step(applications: seq<Application>, outcome: Outcome)

  /** `POST` as a transition on the applications table, given the slugs of
      the existing venues. */
  function ApplyStep(venueSlugs: set<string>, applications: seq<Application>, user: Option<string>,
                     req: ApplicationRequest): (s: Step)
    ensures user.None? ==> s == Step(applications, Unauthorized)
    ensures user.Some? && !(Present(req.name) && Present(req.slug)) ==> s == Step(applications, MissingFields)
    ensures user.Some? && Present(req.name) && Present(req.slug) && !ValidSlug(req.slug.value) ==>
      s == Step(applications, InvalidSlug)
    ensures s.outcome.Created? <==>
      user.Some? && Present(req.name) && Present(req.slug) && ValidSlug(req.slug.value) && req.slug.value !in venueSlugs
    ensures s.outcome == SlugTaken <==>
      user.Some? && Present(req.name) && Present(req.slug) && ValidSlug(req.slug.value) && req.slug.value in venueSlugs
    ensures !s.outcome.Created? ==> s.applications == applications
    ensures s.outcome.Created? ==>
      && s.outcome.id == |applications|
      && |s.applications| == |applications| + 1 && s.applications[..|applications|] == applications
      && s.applications[|applications|].applicantId == user.value
      && s.applications[|applications|].slug == req.slug.value
      && s.applications[|applications|].name == req.name.value
      && s.applications[|applications|].reviewMode == OrElse(req.reviewMode, "open")
      && s.applications[|applications|].details == NullDefaults(req.details)
  {
    if user.None? then Step(applications, Unauthorized)
    else if !Present(req.name) || !Present(req.slug) then Step(applications, MissingFields)
    else if !ValidSlug(req.slug.value) then Step(applications, InvalidSlug)
    else if req.slug.value in venueSlugs then Step(applications, SlugTaken)
    else
      var row := Application(user.value, req.name.value, req.slug.value, OrElse(req.reviewMode, "open"), NullDefaults(req.details));
      Step(applications + [row], Created(|applications|))
  }

  /** Every stored application has a valid slug that no venue had when it
      was filed. */
  lemma {:induction false} StoredSlugsValid(venueSlugs: set<string>, applications: seq<Application>, user: Option<string>,
                                            req: ApplicationRequest)
    requires forall i :: 0 <= i < |applications| ==> ValidSlug(applications[i].slug)
    ensures var s := ApplyStep(venueSlugs, applications, user, req);
      && (forall i :: 0 <= i < |s.applications| ==> ValidSlug(s.applications[i].slug))
      && (s.outcome.Created? ==> s.applications[s.outcome.id].slug !in venueSlugs)
  {
    var s := ApplyStep(venueSlugs, applications, user, req);
    if s.outcome.Created? {
      forall i | 0 <= i < |s.applications| ensures ValidSlug(s.applications[i].slug) {
        if i < |applications| {
          assert s.applications[i] == s.applications[..|applications|][i];
        }
      }
    }
  }

  /** The slug is only checked against venues, not against other
      applications: the same slug can be applied for twice in a row. */
  lemma {:induction false} SameSlugTwice(venueSlugs: set<string>, applications: seq<Application>, user: string,
                                         req: ApplicationRequest)
    requires Present(req.name) && Present(req.slug) && ValidSlug(req.slug.value) && req.slug.value !in venueSlugs
    ensures var once := ApplyStep(venueSlugs, applications, Some(user), req).applications;
      && ApplyStep(venueSlugs, once, Some(user), req).outcome == Created(|applications| + 1)
      && ApplyStep(venueSlugs, once, Some(user), req).applications[|applications|].slug == req.slug.value
      && ApplyStep(venueSlugs, once, Some(user), req).applications[|applications| + 1].slug == req.slug.value
  {
    var once := ApplyStep(venueSlugs, applications, Some(user), req).applications;
    var twice := ApplyStep(venueSlugs, once, Some(user), req).applications;
    assert twice[..|once|][|applications|] == once[|applications|];
  }

  /** The venue-applications table. */
  class ApplicationTable {
    var applications: seq<Application>

    constructor ()
      ensures applications == []
    {
      applications := [];
    }

    /** `POST`: guards, slug lookup among the venues, insert. */
    method Post(venueSlugs: set<string>, user: Option<string>, req: ApplicationRequest) returns (outcome: Outcome)
      modifies this
      ensures Step(applications, outcome) == ApplyStep(venueSlugs, old(applications), user, req)
    {
      if user.None? {
        return Unauthorized;
      }
      if !Present(req.name) || !Present(req.slug) {
        return MissingFields;
      }
      if !ValidSlug(req.slug.value) {
        return InvalidSlug;
      }
      if req.slug.value in venueSlugs {
        return SlugTaken;
      }
      var id := |applications|;
      applications := applications + [Application(user.value, req.name.value, req.slug.value,
                                                   OrElse(req.reviewMode, "open"), NullDefaults(req.details))];
      outcome := Created(id);
    }
  }

  /** `profile?.role` is one of the two administrator roles. */
  predicate IsAdmin(role: Option<string>) {
    role == Some("content_admin") || role == Some("system_admin")
  }

  /** Which application rows `GET` returns to the caller. */
  predicate Visible(a: Application, user: string, role: Option<string>) {
    IsAdmin(role) || a.applicantId == user
  }

  /** The ids of the visible applications among the first `n`, newest first. */
  function VisibleIds(applications: seq<Application>, user: string, role: Option<string>, n: nat): (ids: seq<nat>)
    requires n <= |applications|
    ensures forall k :: 0 <= k < |ids| ==> ids[k] < n && Visible(applications[ids[k]], user, role)
    ensures forall k, l :: 0 <= k < l < |ids| ==> ids[k] > ids[l]
  {
    if n == 0 then []
    else (if Visible(applications[n - 1], user, role) then [n - 1] else []) + VisibleIds(applications, user, role, n - 1)
  }

  /** Every visible application is returned. */
  lemma {:induction false} VisibleIdsComplete(applications: seq<Application>, user: string, role: Option<string>, n: nat, i: nat)
    requires i < n <= |applications| && Visible(applications[i], user, role)
    ensures i in VisibleIds(applications, user, role, n)
  {
    if i < n - 1 {
      VisibleIdsComplete(applications, user, role, n - 1, i);
    }
  }

  datatype ListOutcome = ListUnauthorized | Listed(ids: seq<nat>)   // 401, 200

  /** `GET`: `role` is the caller's profile role, `None` without a profile
      row. */
  function ListStep(applications: seq<Application>, user: Option<string>, role: Option<string>): (o: ListOutcome)
    ensures user.None? <==> o == ListUnauthorized
    ensures o.Listed? ==>
      forall i :: 0 <= i < |applications| ==>
        (i in o.ids <==> IsAdmin(role) || applications[i].applicantId == user.value)
    ensures o.Listed? ==>
      (forall k :: 0 <= k < |o.ids| ==> o.ids[k] < |applications|)
      && forall k, l :: 0 <= k < l < |o.ids| ==> o.ids[k] > o.ids[l]
  {
    if user.None? then ListUnauthorized
    else
      var ids := VisibleIds(applications, user.value, role, |applications|);
      assert forall i :: 0 <= i < |applications| && Visible(applications[i], user.value, role) ==> i in ids by {
        forall i | 0 <= i < |applications| && Visible(applications[i], user.value, role) ensures i in ids {
          VisibleIdsComplete(applications, user.value, role, |applications|, i);
        }
      }
      Listed(ids)
  }
}

=== FILE: vote_button.dfy ===
/** `VoteButton`: the client-side counter next to a paper, review or comment.
    Its state is the displayed `count`, the viewer's own `vote` (null, +1 or
    -1) and a `loading` flag; `handleVote` posts to `/api/vote` and, when the
    server answers with a 2xx status, moves the state to match the click. */
module VoteButton {
  import opened Js
  import VoteRoute

  /** What `await fetch(...)` produced: a response with its status, or a
      rejection (network failure), which the handler swallows. */
  datatype Response = Threw | Answered(status: int)

  predicate Ok(r: Response) {
    r.Answered? && 200 <= r.status <= 299
  }

  predicate ValidVote(v: Option<int>) {
    v == None || v == Some(1) || v == Some(-1)
  }

  function VoteValue(v: Option<int>): int {
    if v.Some? then v.value else 0
  }

  datatype State = State(count: int, vote: Option<int>)

  /** The `value` field of the request body: 0 when the click repeats the
      current vote, otherwise the clicked direction. */
  function RequestValue(vote: Option<int>, clicked: int): (sent: int)
    requires clicked == 1 || clicked == -1
    ensures sent == 0 <==> vote == Some(clicked)
    ensures sent != 0 ==> sent == clicked
  {
    if vote == Some(clicked) then 0 else clicked
  }

  /** The state after the response: unchanged on a 401, on any other non-2xx
      status and on a rejected fetch; otherwise the vote is withdrawn when
      the click repeats it, set when there was none, and flipped when it was
      the other way, with the count following. */
  function AfterClick(s: State, clicked: int, r: Response): (t: State)
    requires clicked == 1 || clicked == -1
    ensures !Ok(r) ==> t == s
    ensures Ok(r) && s.vote == Some(clicked) ==> t == State(s.count - clicked, None)
    ensures Ok(r) && s.vote == None ==> t == State(s.count + clicked, Some(clicked))
    ensures Ok(r) && s.vote.Some? && s.vote != Some(clicked) ==> t == State(s.count + 2 * clicked, Some(clicked))
  {
    if r.Answered? && r.status == 401 then s
    else if Ok(r) then
      if s.vote == Some(clicked) then State(s.count - clicked, None)
      else if s.vote.None? then State(s.count + clicked, Some(clicked))
      else State(s.count + clicked * 2, Some(clicked))
    else s
  }

  /** The votes of everybody else, `count - vote`, are what every click
      keeps; the vote stays null, +1 or -1. */
  lemma OthersConserved(s: State, clicked: int, r: Response)
    requires clicked == 1 || clicked == -1
    requires ValidVote(s.vote)
    ensures var t := AfterClick(s, clicked, r);
      && t.count - VoteValue(t.vote) == s.count - VoteValue(s.vote)
      && ValidVote(t.vote)
  {
  }

  /** A successful click toggles: clicking the same direction twice in a
      row, both answered 2xx, returns to the starting state. */
  lemma {:induction false} ClickTwiceRestores(s: State, clicked: int, r1: Response, r2: Response)
    requires clicked == 1 || clicked == -1
    requires s.vote == None || s.vote == Some(clicked)
    requires Ok(r1) && Ok(r2)
    ensures AfterClick(AfterClick(s, clicked, r1), clicked, r2) == s
  {
    var t := AfterClick(s, clicked, r1);
    if s.vote == None {
      assert t == State(s.count + clicked, Some(clicked));
    } else {
      assert t == State(s.count - clicked, None);
    }
  }

  /** What the client sends and what the server makes of it, for the viewer
      `user` on the counter's target. */
  function ServerStep(votes: map<VoteRoute.VoteKey, int>, user: string, targetType: string, targetId: string,
                      value: int): (s: VoteRoute.Step)
    requires targetType != "" && targetId != ""
    ensures (value == 1 || value == -1) <==> s.outcome != VoteRoute.InvalidParameters
  {
    VoteRoute.Vote(votes, Some(user), VoteRoute.VoteRequest(Some(targetType), Some(targetId), Some(value)))
  }

  function Answer(o: VoteRoute.Outcome): Response {
    Answered(VoteRoute.Status(o))
  }

  /** The viewer's vote as the server holds it. */
  function ServerVote(votes: map<VoteRoute.VoteKey, int>, k: VoteRoute.VoteKey): Option<int> {
    if k in votes then Some(votes[k]) else None
  }

  /** As written, withdrawing a vote never works: the request carries 0,
      the route answers 400, and both the server's vote and the button's
      state stay as they were. */
  lemma UnvoteRejected(votes: map<VoteRoute.VoteKey, int>, user: string, targetType: string, targetId: string,
                       s: State, clicked: int)
    requires targetType != "" && targetId != ""
    requires clicked == 1 || clicked == -1
    requires s.vote == Some(clicked)
    ensures var step := ServerStep(votes, user, targetType, targetId, RequestValue(s.vote, clicked));
      && step.outcome == VoteRoute.InvalidParameters
      && step.votes == votes
      && AfterClick(s, clicked, Answer(step.outcome)) == s
  {
  }

  /** The value the button evidently means to send: the clicked direction,
      which the route itself turns into a removal when it repeats the stored
      vote. */
  function CorrectedRequestValue(vote: Option<int>, clicked: int): (sent: int)
    requires clicked == 1 || clicked == -1
    ensures sent == 1 || sent == -1
  {
    clicked
  }

  /** With the corrected request, a button whose state agrees with the
      server's vote still agrees after any click, including a withdrawal, and
      the count moves by exactly the change of the viewer's vote. */
  lemma {:induction false} CorrectedRoundTripSynced(votes: map<VoteRoute.VoteKey, int>, user: string, targetType: string,
                                                    targetId: string, s: State, clicked: int)
    requires targetType != "" && targetId != ""
    requires clicked == 1 || clicked == -1
    requires s.vote == ServerVote(votes, VoteRoute.VoteKey(user, targetType, targetId))
    requires ValidVote(s.vote)
    ensures var step := ServerStep(votes, user, targetType, targetId, CorrectedRequestValue(s.vote, clicked));
      var t := AfterClick(s, clicked, Answer(step.outcome));
      && t.vote == ServerVote(step.votes, VoteRoute.VoteKey(user, targetType, targetId))
      && t.count - s.count == VoteValue(t.vote) - VoteValue(s.vote)
      && (s.vote == Some(clicked) ==> t.vote == None)
  {
    var k := VoteRoute.VoteKey(user, targetType, targetId);
    var req := VoteRoute.VoteRequest(Some(targetType), Some(targetId), Some(clicked));
    assert VoteRoute.ValidRequest(req) && VoteRoute.KeyOf(user, req) == k;
    var step := ServerStep(votes, user, targetType, targetId, clicked);
    if k in votes && votes[k] == clicked {
      assert step.votes == votes - {k};
    } else {
      assert step.votes == votes[k := clicked];
    }
  }

  class Button {
    var count: int
    var vote: Option<int>
    var loading: bool

    constructor (initialCount: int, initialVote: Option<int>)
      requires ValidVote(initialVote)
      ensures count == initialCount && vote == initialVote && !loading
    {
      count, vote, loading := initialCount, initialVote, false;
    }

    /** `handleVote(value)`: returns the `value` field it sent; the response
        to that request is the parameter `r`. */
    method HandleVote(clicked: int, r: Response) returns (sent: int)
      requires clicked == 1 || clicked == -1
      modifies this
      ensures sent == RequestValue(old(vote), clicked)
      ensures State(count, vote) == AfterClick(old(State(count, vote)), clicked, r)
      ensures !loading
    {
      loading := true;
      sent := if vote == Some(clicked) then 0 else clicked;
      if r.Answered? && r.status == 401 {
        loading := false;
        return;
      }
      if r.Answered? && 200 <= r.status <= 299 {
        if vote == Some(clicked) {
          count := count - clicked;
          vote := None;
        } else if vote == None {
          count := count + clicked;
          vote := Some(clicked);
        } else {
          count := count + clicked * 2;
          vote := Some(clicked);
        }
      }
      loading := false;
    }
  }
}

=== FILE: vote_route.dfy ===
/** `POST /api/vote`: a signed-in user up- or down-votes a target. The votes
    table holds at most one vote per (user, target type, target id), so it is
    a map from that key to the vote's value. Voting the value already held
    removes the vote, voting the other value changes it in place, and a first
    vote inserts it. */
module VoteRoute {
  import opened Js

  datatype VoteKey = VoteKey(userId: string, targetType: string, targetId: string)

  /** The request body. `value` is `None` when it is absent or not a number. */
  datatype VoteRequest = VoteRequest(targetType: Option<string>, targetId: Option<string>, value: Option<int>)

  datatype Outcome =
    | Unauthorized            // 401
    | InvalidParameters       // 400
    | Removed                 // 200, { action: "removed", value: 0 }
    | Changed(value: int)     // 200, { action: "changed", value }
    | Created(value: int)     // 201, { action: "created", value }

  function Status(o: Outcome): (code: int)
    ensures 200 <= code < 300 <==> o.Removed? || o.Changed? || o.Created?
  {
    match o
    case Unauthorized => 401
    case InvalidParameters => 400
    case Removed => 200
    case Changed(_) => 200
    case Created(_) => 201
  }

  /** `![-1, 1].includes(value)` is false. */
  predicate ValidValue(v: Option<int>) {
    v == Some(-1) || v == Some(1)
  }

  /** The guard at the top of the handler: both target fields truthy and the
      value exactly -1 or 1. */
  predicate ValidRequest(req: VoteRequest) {
    Present(req.targetType) && Present(req.targetId) && ValidValue(req.value)
  }

  function KeyOf(user: string, req: VoteRequest): VoteKey
    requires ValidRequest(req)
  {
    VoteKey(user, req.targetType.value, req.targetId.value)
  }

  datatype Step = Step(votes: map<VoteKey, int>, outcome: Outcome)

  /** The handler as a transition on the votes table. `user` is the session
      user's id, `None` when nobody is signed in. */
  function Vote(votes: map<VoteKey, int>, user: Option<string>, req: VoteRequest): (s: Step)
    ensures user.None? ==> s == Step(votes, Unauthorized)
    ensures user.Some? && !ValidRequest(req) ==> s == Step(votes, InvalidParameters)
    ensures user.Some? && ValidRequest(req) ==>
      var k, v := KeyOf(user.value, req), req.value.value;
      && (k in votes && votes[k] == v ==> s == Step(votes - {k}, Removed))
      && (k in votes && votes[k] != v ==> s == Step(votes[k := v], Changed(v)))
      && (k !in votes ==> s == Step(votes[k := v], Created(v)))
  {
    if user.None? then Step(votes, Unauthorized)
    else if !ValidRequest(req) then Step(votes, InvalidParameters)
    else
      var k, v := KeyOf(user.value, req), req.value.value;
      if k in votes then
        if votes[k] == v then Step(votes - {k}, Removed)
        else Step(votes[k := v], Changed(v))
      else Step(votes[k := v], Created(v))
  }

  /** Every stored vote is -1 or 1. */
  predicate ValuesValid(votes: map<VoteKey, int>) {
    forall k :: k in votes ==> votes[k] == -1 || votes[k] == 1
  }

  /** A rejected request (401 or 400) changes nothing; an accepted one leaves
      the key holding exactly what the response reports. */
  lemma OutcomeMatchesTable(votes: map<VoteKey, int>, user: Option<string>, req: VoteRequest)
    ensures var s := Vote(votes, user, req);
      && (s.outcome.Unauthorized? || s.outcome.InvalidParameters? ==> s.votes == votes)
      && (s.outcome.Removed? ==> KeyOf(user.value, req) !in s.votes)
      && (s.outcome.Changed? || s.outcome.Created? ==>
            KeyOf(user.value, req) in s.votes && s.votes[KeyOf(user.value, req)] == s.outcome.value)
      && (Status(s.outcome) == 400 <==> user.Some? && !ValidRequest(req))
  {
  }

  /** The table never holds a value other than -1 or 1; in particular a value
      of 0 is never stored. */
  lemma ValuesStayValid(votes: map<VoteKey, int>, user: Option<string>, req: VoteRequest)
    requires ValuesValid(votes)
    ensures ValuesValid(Vote(votes, user, req).votes)
  {
  }

  /** Votes under every other key are untouched. */
  lemma OtherKeysUntouched(votes: map<VoteKey, int>, user: string, req: VoteRequest, other: VoteKey)
    requires ValidRequest(req) && other != KeyOf(user, req)
    ensures var after := Vote(votes, Some(user), req).votes;
      (other in after <==> other in votes) && (other in votes ==> after[other] == votes[other])
  {
  }

  /** Sending the same vote twice restores the table exactly when the key did
      not already hold the opposite vote; from the opposite vote, the first
      call changes it and the second removes it. */
  lemma {:induction false} SameVoteTwice(votes: map<VoteKey, int>, user: string, req: VoteRequest)
    requires ValidRequest(req)
    ensures var k := KeyOf(user, req);
      var twice := Vote(Vote(votes, Some(user), req).votes, Some(user), req).votes;
      && (k !in votes || votes[k] == req.value.value ==> twice == votes)
      && (k in votes && votes[k] != req.value.value ==> twice == votes - {k})
  {
    var k, v := KeyOf(user, req), req.value.value;
    var once := Vote(votes, Some(user), req).votes;
    if k !in votes {
      assert once == votes[k := v];
      assert once - {k} == votes;
    } else if votes[k] == v {
      assert once == votes - {k};
      assert once[k := v] == votes;
    } else {
      assert once == votes[k := v];
      assert once - {k} == votes - {k};
    }
  }

  /** The votes table. */
  class VoteTable {
    var votes: map<VoteKey, int>

    constructor ()
      ensures votes == map[]
    {
      votes := map[];
    }

    /** `POST`: look the key up, then delete, update or insert. */
    method Post(user: Option<string>, req: VoteRequest) returns (outcome: Outcome)
      modifies this
      ensures Step(votes, outcome) == Vote(old(votes), user, req)
    {
      if user.None? {
        return Unauthorized;
      }
      if !Present(req.targetType) || !Present(req.targetId) || !ValidValue(req.value) {
        return InvalidParameters;
      }
      var key := VoteKey(user.value, req.targetType.value, req.targetId.value);
      var value := req.value.value;
      if key in votes {
        if votes[key] == value {
          votes := votes - {key};
          return Removed;
        } else {
          votes := votes[key := value];
          return Changed(value);
        }
      }
      votes := votes[key := value];
      outcome := Created(value);
    }
  }
}
